=== FILE: README.md ===
# Campus-Marketplace rental, chat and purchase core in Dafny

This project models the core of Campus-Marketplace, a campus peer-to-peer
marketplace. It covers:

- The **rental-return record**. Its column defaults, and the one operation that
  mutates it, `DatabaseStorage.confirmRentalReturn`. That operation dispatches
  on `type` (start, end, date, verify_otp, reject_date) and on `confirmedBy`,
  and builds a partial update for the single record.
- The **rental HTTP handlers**. One creates a record with two four-digit OTPs.
  One fetches the newest record of a chat. One forwards a confirmation.
- **Chats**. Get-or-create keyed by (listing, buyer), the choice of the other
  party, and the request validation of the chat, message and purchase handlers
  (400/404/500 outcomes and their messages).
- The **purchase total**: `price * (quantity || 1)`.
- The **chat screen's** listing-status gating, its system message, and the
  blank-text guard on sending.
- The **mobile home screen's** client-side listing filter.
- **`buildUrl`** path templating, with JavaScript `String.prototype.replace`
  semantics.

The store is an immutable `Db` holding four tables as sequences in insertion
order, with serial ids. A keyed lookup returns the first matching row.
Handlers are pure functions from a store and a request to a new store and a
reply. JavaScript values in request bodies are a `JsValue` datatype, with the
language's truthiness and `Number()` conversion. Timestamps are integers. The
random factor of OTP generation is a parameter `Draw` (a natural below 9000).
The current time `now` is a parameter too.

The code performs no status checks and computes no lateness, and the model
proves what it does:

- Confirmations check no status. `verify_otp` on a completed record with the
  handover OTP makes it active again, so the status is not monotonic
  (`RentalFacts.CompletedBecomesActiveAgain`).
- A new date from one party does not clear the other party's agreement. Both
  flags end up true for a date only one party proposed
  (`RentalFacts.DateKeepsCounterpartAgreement`).
- Lateness and penalty are never computed. Every record the API can build has
  `isLate` false, `penalty` 0, and a status other than "late"
  (`Reachability.ReachableStoresAreWellFormed`).
- Completing a rental does not make the listing available again
  (`RentalFacts.CompletionLeavesListingAlone`).
- A missing rental raises "Rental not found" from the store. No handler catches
  it, so it is not turned into an error reply (`Routes.ConfirmRoute`).
- An OTP sent as a JSON number never equals the stored text OTP, so it never
  verifies (`Routes.NonStringOtpIsNoOp`).
- Ids the database cannot store in an `integer` column (NaN, or outside
  -2147483648..2147483647) make the query throw. The chat, message and
  purchase handlers turn that into a 500.

## Model

| member | source | states |
|---|---|---|
| `Schema.ListingRow` | shared/schema.ts:19-34 | a new listing gets the given id and creation time, keeps the supplied seller, title, description, price, category and type, and has status "available" unless a status is supplied |
| `Schema.RentalRow` | shared/schema.ts:52-71 | a new rental keeps its required chatId, listingId and returnDate and its nullable OTPs; for each optional column separately, a supplied value is kept and an omitted one takes its default (start date the insertion time, each flag and isLate false, penalty 0, status pending) |
| `Schema.BareRentalDefaults` | shared/schema.ts:56-70 | a rental inserted with only its required columns has all six party flags, both verification flags and isLate false, penalty 0, no OTPs and status "pending" |
| `Storage.GetListings` | server/storage.ts:54-62 | the result is sorted newest first and is a permutation of the listings of the given category, or of all listings when no category is given |
| `Storage.GetListing` | server/storage.ts:64-67 | the result is a stored listing with this id, and it is absent exactly when no listing has the id |
| `Storage.CreateListing` | server/storage.ts:69-72 | the new row, with the next serial id, is appended and nothing else changes |
| `Storage.UpdateListingStatus` | server/storage.ts:74-80 | with no listing of that id, nothing changes and nothing is returned; otherwise only that listing's status changes, the updated row is returned, and a lookup by the id afterwards finds exactly that row |
| `Storage.GetChats` | server/storage.ts:82-98 | the chats returned are exactly those where the user is buyer or seller, in the model's table order, each with its listing and the other party's id |
| `Storage.Counterpart` | server/storage.ts:87 | the other party is the chat's buyer or seller; it is not the user when the user takes part and the two parties differ; the seller gets the buyer, and a user outside the chat gets the buyer |
| `Storage.GetChat` | server/storage.ts:100-105 | the result is a chat with this listing and buyer, and it is absent exactly when there is none |
| `Storage.CreateChat` | server/storage.ts:107-114 | a chat with the next serial id and the given listing, buyer and seller is appended |
| `Storage.CreateMessage` | server/storage.ts:122-125 | a message with the next serial id and the given chat, sender and content is appended |
| `Storage.MessagesToMarkRead` | server/storage.ts:172-180 | nothing is targeted when the chat does not exist; otherwise exactly that chat's messages sent by the other party are targeted, in table order |
| `Storage.LatestRental` | server/storage.ts:127-132 | the result is a record of the chat with the greatest createdAt among that chat's records, and it is absent exactly when the chat has none |
| `Storage.GetRentalReturn` | server/storage.ts:127-132 | the newest record of the chat, or nothing when the chat has no record |
| `Storage.CreateRentalReturn` | server/storage.ts:134-137 | the row built from the insert with the next serial id is appended |
| `Storage.ConfirmUpdates` | server/storage.ts:143-163 | the update set only ever sets flags to true; a buyer call names no seller flag and any other call no buyer flag; a return date is set only by "date", to the given date; a status is set only by verify_otp with a non-empty OTP, active exactly with the handover flag and completed exactly with the return flag, and never pending or late |
| `Storage.ConfirmStep` | server/storage.ts:143-163 | one confirmation never turns a flag false and never changes the id, chat, listing, start date, creation time, OTPs, isLate or penalty |
| `Storage.RentalIndex` | server/storage.ts:140 | finds the position of the rental with this id, and is absent exactly when there is none |
| `Storage.ConfirmRentalReturn` | server/storage.ts:139-170 | fails with "Rental not found" exactly when no rental has the id, writing nothing; otherwise it replaces only that record by its confirmed version and returns it |
| `RentalFacts.StartSetsCallerFlag` | server/storage.ts:145-147 | "start" sets buyerStarted when the caller is "buyer", and sellerStarted for any other caller; nothing else changes |
| `RentalFacts.EndSetsCallerFlag` | server/storage.ts:148-150 | "end" sets the caller's confirmed flag and nothing else, with every non-"buyer" caller counted as the seller |
| `RentalFacts.EndAcceptedWhilePending` | server/storage.ts:148-150 | "end" is accepted on a pending record whose OTPs were never verified |
| `RentalFacts.DateSetsCallerAgreement` | server/storage.ts:151-154 | "date" with a date sets returnDate and the caller's agreement flag only |
| `RentalFacts.DateWithoutValueIsNoOp` | server/storage.ts:151 | "date" without a date changes nothing |
| `RentalFacts.DateKeepsCounterpartAgreement` | server/storage.ts:151-154 | a changed date from the buyer keeps the seller's earlier agreement, so both parties count as agreed to the new date |
| `RentalFacts.ConflictingDatesBothAgreed` | server/storage.ts:151-154 | two different dates proposed in turn by the two parties leave both agreed, on the second date |
| `RentalFacts.MutualDateAgreement` | server/storage.ts:151-154 | both parties proposing the same date leaves both agreed on it |
| `RentalFacts.HandoverOtpActivates` | server/storage.ts:155-158 | an OTP equal to the handover OTP sets handoverOtpVerified, sets status active, and changes nothing else |
| `RentalFacts.ReturnOtpCompletes` | server/storage.ts:159-161 | otherwise, an OTP equal to the return OTP sets returnOtpVerified, sets status completed, and changes nothing else |
| `RentalFacts.OtpMismatchIsNoOp` | server/storage.ts:155-162 | an absent or empty OTP, or one matching neither code, changes nothing |
| `RentalFacts.HandoverWinsOnCollision` | server/storage.ts:156-161 | when the two OTPs coincide, entering that code activates the rental and the return is never verified |
| `RentalFacts.CompletedBecomesActiveAgain` | server/storage.ts:155-158 | re-entering the handover OTP on a completed record sets its status back to active |
| `RentalFacts.RepeatedHandoverOtp` | server/storage.ts:155-158 | entering the handover OTP twice in a row is the same as entering it once |
| `RentalFacts.RejectDateIsNoOp` | server/storage.ts:143-163 | "reject_date" produces an empty update |
| `RentalFacts.UnknownActionIsNoOp` | server/storage.ts:143-163 | any action other than start, end, date and verify_otp changes nothing |
| `RentalFacts.StatusChangesOnlyByOtp` | server/storage.ts:143-163 | the status changes only on verify_otp with a matching code, to active for the handover code and to completed for the return code |
| `RentalFacts.PartyFlagsFollowCaller` | server/storage.ts:145-154 | the buyer's flags change only on calls naming the buyer, and the seller's only on calls that do not |
| `RentalFacts.CompletionLeavesListingAlone` | server/storage.ts:155-170 | completing a rental by its return OTP leaves the listings table unchanged |
| `RentalFacts.ReplayKeepsFixedColumns` | server/storage.ts:143-170 | no sequence of confirmations changes the keys, start and creation times, OTPs, isLate or penalty |
| `RentalFacts.ReplayKeepsFlags` | server/storage.ts:143-170 | no sequence of confirmations turns a flag back to false |
| `RentalFacts.ReplayNeverLate` | server/storage.ts:143-170 | no sequence of confirmations produces the status "late" from any other status |
| `Routes.ListChats` | server/routes.ts:70-76 | the reply is 400 "userId required" exactly when Number(userId) is NaN or 0; otherwise it is 200 with that user's chats |
| `Routes.ChatBuyer` | server/routes.ts:86-90 | a falsy buyerId means user 1, and a truthy one means Number(buyerId); the buyer is NaN exactly when buyerId is truthy and Number of it is NaN |
| `Routes.CreateChatRoute` | server/routes.ts:78-106 | checks run in order: a falsy listingId gives 400; a NaN buyer gives 400 (a falsy buyerId means user 1); a listing id that is NaN or outside the integer column range gives 500; an unknown listing gives 404; a buyer id outside that range gives 500; all of these write nothing; the reply is 201 exactly when every check passes, with the existing chat for (listing, buyer), or with a new chat carrying the listing's seller |
| `Routes.CreateChatKeepsKeysUnique` | server/routes.ts:92-99 | for requests handled one at a time, get-or-create never makes a second chat for the same listing and buyer |
| `Routes.CreateChatIdempotent` | server/routes.ts:95-101 | repeating a valid chat request (one that passes every check) returns the same chat and writes nothing |
| `Routes.SendMessageRoute` | server/routes.ts:113-136 | empty content or a falsy sender gives 400, and a NaN sender gives 400; a chat or sender id that is NaN or outside the integer column range gives 500; all of these write nothing; otherwise the message is stored under the path's chat id with the numeric sender and the reply is 201 |
| `Routes.GetRentalRoute` | server/routes.ts:148-151 | the reply is the chat's newest rental record, or null when the chat has none |
| `Routes.OtpFromDraw` | server/routes.ts:156-157 | the OTP is exactly four decimal digits with no leading zero, and reads back as 1000 plus the draw |
| `Routes.CreateRentalRoute` | server/routes.ts:153-168 | for integer chat and listing ids and return date, the reply is 201 and the stored record has the given chat, listing and return date, status pending, two four-digit OTPs, every flag false and penalty 0 |
| `Routes.NewRentalIsLatest` | server/routes.ts:148-168 | a record created later than the chat's earlier records is the one the GET handler returns |
| `Routes.ConfirmRoute` | server/routes.ts:170-174 | the body's confirmedBy, type and date reach the store unchanged, and so does otp when it is a string; the call fails exactly when the id has no rental |
| `Routes.NonStringOtpIsNoOp` | server/storage.ts:155-162 | verify_otp with an OTP that is not a string, a JSON number included, leaves the store unchanged and returns the record as it was |
| `Routes.EffectiveQuantity` | server/routes.ts:196 | `quantity || 1` is always truthy; it is the quantity itself when that is truthy and the number 1 otherwise |
| `Routes.TotalPrice` | server/routes.ts:197 | the total is the price for a falsy quantity and price times Number(quantity) for a truthy one, strings and booleans included; it is NaN exactly when Number of the effective quantity is NaN |
| `Routes.PurchaseRoute` | server/routes.ts:175-211 | a missing listingId or type gives 400; a listing id that is NaN or outside the integer column range gives 500; an unknown listing gives 404; the reply is 201 exactly when every check passes, with a pending order for user 1 at price times quantity; nothing is stored |
| `Routes.NegativeQuantityAccepted` | server/routes.ts:180-197 | a negative quantity is accepted and gives a negative total |
| `Reachability.ConfirmKeepsWellFormed` | server/storage.ts:143-163 | a confirmation keeps a record's OTPs four-digit numerals, its status other than late, isLate false and penalty 0 |
| `Reachability.HandleKeepsInv` | server/routes.ts:50-174 | for requests handled one at a time, every write request keeps serial ids, unique (listing, buyer) chats and well-formed rental records |
| `Reachability.RunKeepsInv` | server/routes.ts:50-174 | every sequence of write requests, handled one after another, keeps that invariant |
| `Reachability.ReachableStoresAreWellFormed` | server/routes.ts:153-174 | in every store built from an empty database by requests handled one after another, each rental has two four-digit OTPs, is not late and has no penalty, and no (listing, buyer) pair has two chats |
| `Reachability.ReachableStatusTexts` | shared/schema.ts:70 | in every store built from an empty database, each rental's status text is pending, active or completed |
| `ApiPaths.Expand` | shared/routes.ts:116 | a replacement without `$` is inserted literally |
| `ApiPaths.JsReplace` | shared/routes.ts:116 | with no occurrence the url is unchanged; with a `$`-free replacement exactly the first occurrence is replaced |
| `ApiPaths.BuildUrl` | shared/routes.ts:111-121 | without parameters, or with an empty record, the path comes back unchanged; a path without `:` comes back unchanged whatever the parameters; a first key whose placeholder is absent is skipped |
| `ApiPaths.AbsentKeyIgnored` | shared/routes.ts:115 | a key whose `:key` does not occur in the url has no effect |
| `ApiPaths.FirstOccurrenceOnly` | shared/routes.ts:115-116 | for a value without `$`, a step replaces the first `:key` by String(value) and leaves the rest of the url, later occurrences included, unchanged |
| `ApiPaths.SubstituteAfterPrefix` | shared/routes.ts:114-117 | for a value without `$`, the `:key` following a colon-free prefix is replaced in place by String(value) |
| `ApiPaths.ListingUrl` | shared/routes.ts:111-121 | filling "/api/listings/:id" with id n gives "/api/listings/" followed by n |
| `ApiPaths.MessagesUrl` | shared/routes.ts:111-121 | filling "/api/chats/:id/messages" with id n gives "/api/chats/" + n + "/messages" |
| `ApiPaths.ListingUrlRoundTrip` | server/routes.ts:45 | the server's Number of the id segment of a built listing url is the id that was filled in |
| `ApiPaths.DollarAmpersandKeepsPlaceholder` | shared/routes.ts:116 | a string value "$&" is expanded by replace and puts the placeholder back instead of inserting the text |
| `ChatDetail.CurrentChat` | client/src/pages/ChatDetail.tsx:19-25 | the current chat has the route's id, and it is absent exactly when chats are not loaded, the id is NaN, or no chat has the id |
| `ChatDetail.IsSeller` | client/src/pages/ChatDetail.tsx:27 | with a chat and a user, the user is the seller iff the chat's sellerId equals the user id; with neither, the comparison of two undefined values holds |
| `ChatDetail.CurrentUserId` | client/src/pages/ChatDetail.tsx:60 | the current user id is the user's id when it is truthy, and 1 otherwise |
| `ChatDetail.IsMine` | client/src/pages/ChatDetail.tsx:180 | with a user of non-zero id, a message is the user's own iff that user sent it; with no user, iff user 1 sent it |
| `ChatDetail.HeaderActions` | client/src/pages/ChatDetail.tsx:95-112 | "Mark Action" is shown iff the seller views an available listing, "Confirm Return" iff the seller views a rented one, and never both |
| `ChatDetail.ModalOption` | client/src/pages/ChatDetail.tsx:131-150 | the intended modal: it offers "sold" iff the listing's type is "sell", "rented" otherwise, and never "available" |
| `ChatDetail.ModalAsWritten` | client/src/pages/ChatDetail.tsx:131-153 | the modal as rendered, with `Calendar` missing from the line 6 import, yields a choice only for a "sell" listing, and that choice is "sold"; for any other listing rendering fails |
| `ChatDetail.HandleSend` | client/src/pages/ChatDetail.tsx:50-58 | empty or whitespace-only text sends nothing; any other text is sent to the chat as is |
| `ChatDetail.HandleStatusUpdate` | client/src/pages/ChatDetail.tsx:39-48 | without a listing nothing happens; otherwise the listing's status is updated first, then the announcement goes through the send guard |
| `ChatDetail.StatusGating` | client/src/pages/ChatDetail.tsx:95-150 | with the intended modal, the seller can set an available listing only to sold (sell type) or rented (any other type), and a rented listing only to available; anyone else, or any other status, is offered nothing |
| `ChatDetail.RentedNeverChosenFromModal` | client/src/pages/ChatDetail.tsx:95-153 | as rendered, no one can choose "rented"; the seller of an available listing that is not of type "sell" gets nothing, where the intended screen offers "rented" |
| `ChatDetail.SoldIsFinal` | client/src/pages/ChatDetail.tsx:95-112 | a sold listing offers no status action |
| `ChatDetail.SystemMessageIsSent` | client/src/pages/ChatDetail.tsx:44-47 | a status update always sends "[System] This item has been marked as sold/rented/available." after the update |
| `ChatDetail.SystemMessage` | client/src/pages/ChatDetail.tsx:44-47 | the announcement is never blank, starts with "[System] This item has been marked as ", and the status text can be read back from between that prefix and the final period |
| `ChatDetail.SendStores` | client/src/hooks/use-chats.ts:60-66 | a message the screen sends is stored by the server under the chat, with the current user id as sender |
| `ChatDetail.SentTextIsMine` | client/src/pages/ChatDetail.tsx:180 | a sent non-blank text is stored under the chat and is then drawn as the user's own |
| `ChatDetail.StatusUpdateReachesServer` | client/src/pages/ChatDetail.tsx:39-48 | once the server handles a status change, the listing has the new status and the chat's newest message is the announcement |
| `HomeScreen.StagedIsOneFilter` | mobile/screens/HomeScreen.tsx:31-40 | the category, search and on-offer filters applied in turn are one filter by the conjunction |
| `HomeScreen.FilterListings` | mobile/screens/HomeScreen.tsx:30-41 | the result is the single filter of the data by visibility, with null read as empty: an order-preserving subsequence holding exactly the listings of the category (unless 'All') whose titles contain the term case-insensitively (unless it is empty) and that are neither sold nor rented |
| `HomeScreen.ShowsVisibleListingsOfStore` | mobile/screens/HomeScreen.tsx:22-41 | fetched without parameters and filtered on the client, the screen shows exactly the store's listings visible for the category and term |

## Findings

| source | as written | input that shows it | evidently intended | confidence | as-written member | corrected member |
|---|---|---|---|---|---|---|
| client/src/pages/ChatDetail.tsx:151 | the "Mark as Rented" button renders `<Calendar>`, but the icon import on line 6 does not include `Calendar` | the seller of an available listing of type "rent" presses "Mark Action": rendering the modal throws a ReferenceError, so "rented" can never be chosen | the modal shows "Mark as Rented" and pressing it marks the listing rented | high; not executed | `ChatDetail.RentedNeverChosenFromModal` | `ChatDetail.StatusGating` |

## Left out

- Database and ORM: drizzle queries, `.returning()`, transactions and
  concurrency are left out. Tables are sequences with serial ids.
- An empty update set in `confirmRentalReturn` is modelled as "no change". The
  ORM's own handling of an empty `SET` is not modelled.
- `Routes.CreateChatKeepsKeysUnique`, `Reachability.HandleKeepsInv`,
  `Reachability.RunKeepsInv` and `Reachability.ReachableStoresAreWellFormed`:
  unique (listing, buyer) chats hold only for requests handled one after
  another. The chats table has no unique index, and POST /api/chats looks the
  chat up and inserts it in two separate awaits with no transaction. So two
  overlapping requests can both miss and both insert, and `getChat` then
  returns either row.
- Row order of `ORDER BY created_at` ties is unspecified in the database. The
  model breaks ties by insertion order: the earliest-inserted newest record for
  `getRentalReturn`, and the sort's order for `getListings`.
- `Storage.GetChats`: `getChats` has no `ORDER BY`, so the database returns its
  rows in no specified order. The model returns them in table order, which is
  a modelling choice. The same holds for the first-row picks of `getChat`,
  `getListing` and the rental lookup (`Storage.GetChat`, `Storage.GetListing`,
  `Storage.RentalIndex`). Ids are serial, so an id lookup has one match; a
  (listing, buyer) lookup can have two after concurrent chat requests (next line).
- An id that is NaN or outside the `integer` range and reaches the database is
  modelled as a database error. In the chat, message and purchase handlers the
  `catch` turns it into a 500.
- `Routes.ListChats`, `Routes.GetRentalRoute` and `Routes.ConfirmRoute`: these
  handlers have no `catch`. A NaN id, or one outside the 32-bit `integer`
  range, makes their query throw an uncaught error. The model takes their ids
  as integers, so it does not model that failure. Stored rows are assumed to
  hold in-range values.
- `Routes.CreateRentalRoute`: POST /api/rentals validates nothing and has no
  `catch`. A missing `chatId`, `listingId` or `returnDate`, a non-numeric or
  out-of-range id, or an invalid date makes the insert throw an uncaught error
  rather than reply 201. The model takes these fields as integers, so it does
  not model those failures.
- `Math.random` is the parameter `Draw`, and `new Date()` is the parameter
  `now`. Date strings are integers, and date parsing and invalid dates are not
  modelled.
- Floating point is left out. `Number()` handles integers written in decimal
  with optional whitespace and sign. Hexadecimal, exponent and fractional
  notations, `Infinity`, and arrays are read as NaN or are not represented.
- `Routes.TotalPrice`: modelled over integers. Fractional quantities and prices
  are left out, and JavaScript's floating-point multiplication is not modelled.
- `Routes.SendMessageRoute`: message content is a string or absent. A truthy
  non-string JSON value as content is not modelled.
- `Storage.UpdateListingStatus`: models only the `status` field of
  `updateListing`, the only field the chat screen sends. Other partial
  updates are not modelled.
- The users table and the `otherUser` record of `getChats` are not part of
  this model. A chat view carries the other party's id only.
- `markMessagesAsRead` writes a `read` column the messages table does not
  have. The model gives only the set of messages it targets.
- `ApiPaths.BuildUrl`: parameters are given in their `Object.entries` order.
  JavaScript's enumeration of integer-like keys before other keys is not
  modelled, and parameter values are strings and integers only.
- Media columns of listings (image, PDF and video URLs), file upload and
  static serving, PDF rendering, auth forms and the disabled auth endpoints are
  not modelled. They are file I/O, rendering, or configuration.
- The listing read and create handlers (zod validation) and `getMessages` are
  read-only or validation plumbing, and are not modelled. The chat screen's
  rendering, modal open and close state, scrolling and polling are not modelled
  either.
- Unicode case folding is not modelled. `toLowerCase` in the home-screen search
  maps ASCII letters only.

=== FILE: ApiPaths.dfy ===
/** The API's path templates and `buildUrl`, which fills `:key` placeholders
    from a parameter record. */
module ApiPaths {
  import opened Common
  import opened Text
  import opened Js

  const ListingsPath: string := "/api/listings"
  const ListingPath: string := "/api/listings/:id"
  const ChatsPath: string := "/api/chats"
  const MessagesPath: string := "/api/chats/:id/messages"

  /** A parameter value: `string | number` (integers only). */
  datatype ParamValue = PStr(s: string) | PNum(n: int)

  /** `String(value)`. */
  function Stringify(v: ParamValue): string {
    match v
    case PStr(s) => s
    case PNum(n) => IntToString(n)
  }

  /** The replacement text `String.prototype.replace` inserts for a string
      pattern: `$$` is `$`, `$&` the match, `` $` `` the text before it, `$'`
      the text after it; any other `$` is literal (a string pattern has no
      capture groups). */
  function Expand(rep: string, matched: string, before: string, after: string): (r: string)
    ensures '$' !in rep ==> r == rep
    decreases |rep|
  {
    if |rep| == 0 then ""
    else if rep[0] == '$' && |rep| >= 2 && rep[1] == '$' then "$" + Expand(rep[2..], matched, before, after)
    else if rep[0] == '$' && |rep| >= 2 && rep[1] == '&' then matched + Expand(rep[2..], matched, before, after)
    else if rep[0] == '$' && |rep| >= 2 && rep[1] == '`' then before + Expand(rep[2..], matched, before, after)
    else if rep[0] == '$' && |rep| >= 2 && rep[1] == '\'' then after + Expand(rep[2..], matched, before, after)
    else [rep[0]] + Expand(rep[1..], matched, before, after)
  }

  /** `s.replace(pat, rep)` with a string pattern and a string replacement. */
  function JsReplace(s: string, pat: string, rep: string): (r: string)
    ensures IndexOf(s, pat).None? ==> r == s
    ensures '$' !in rep ==> r == ReplaceFirst(s, pat, rep)
  {
    match IndexOf(s, pat)
    case None => s
    case Some(i) => s[..i] + Expand(rep, pat, s[..i], s[i + |pat|..]) + s[i + |pat|..]
  }

  /** The placeholder for `key`. */
  function Placeholder(key: string): string {
    ":" + key
  }

  /** One step of the `forEach`: replace the key's placeholder if the url contains it. */
  function Substitute(url: string, key: string, value: ParamValue): string {
    if Includes(url, Placeholder(key)) then JsReplace(url, Placeholder(key), Stringify(value)) else url
  }

  /** The steps for `entries`, in order. */
  function SubstituteAll(url: string, entries: seq<(string, ParamValue)>): string
    decreases |entries|
  {
    if |entries| == 0 then url
    else SubstituteAll(Substitute(url, entries[0].0, entries[0].1), entries[1..])
  }

  /** `buildUrl(path, params)`; `params` is given as its `Object.entries`, and
      `None` stands for an absent (undefined) record. */
  function BuildUrl(path: string, params: Option<seq<(string, ParamValue)>>): (url: string)
    ensures params.None? || params == Some([]) ==> url == path
    ensures ':' !in path ==> url == path
    ensures (params.Some? && |params.value| > 0 && !Includes(path, Placeholder(params.value[0].0))) ==>
      url == SubstituteAll(path, params.value[1..])
  {
    match params
    case None => path
    case Some(entries) =>
      NoColonKeepsUrl(path, entries);
      SubstituteAll(path, entries)
  }

  /** A url without `:` holds no placeholder. */
  lemma NoColonNoPlaceholder(url: string, key: string)
    requires ':' !in url
    ensures !Includes(url, Placeholder(key))
  {
    var pat := Placeholder(key);
    forall i: nat
      ensures !OccursAt(url, pat, i)
    {
      if i + |pat| <= |url| {
        assert url[i..i + |pat|][0] == url[i] != ':';
      }
    }
    IncludesMeansOccurs(url, pat);
  }

  /** No step changes a url without `:`. */
  lemma {:induction false} NoColonKeepsUrl(url: string, entries: seq<(string, ParamValue)>)
    ensures ':' !in url ==> SubstituteAll(url, entries) == url
    decreases |entries|
  {
    if |entries| > 0 && ':' !in url {
      NoColonNoPlaceholder(url, entries[0].0);
      NoColonKeepsUrl(url, entries[1..]);
    }
  }

  /** A key whose placeholder does not occur in the url has no effect. */
  lemma {:induction false} AbsentKeyIgnored(path: string, key: string, value: ParamValue,
                                            rest: seq<(string, ParamValue)>)
    requires !Includes(path, Placeholder(key))
    ensures BuildUrl(path, Some([(key, value)] + rest)) == BuildUrl(path, Some(rest))
  {
    var entries := [(key, value)] + rest;
    assert entries[0] == (key, value) && entries[1..] == rest;
    assert Substitute(path, key, value) == path;
  }

  /** A step replaces the first occurrence of the placeholder by `String(value)`
      and leaves everything after it, later occurrences included, as it was. */
  lemma FirstOccurrenceOnly(url: string, key: string, value: ParamValue)
    requires Includes(url, Placeholder(key)) && '$' !in Stringify(value)
    ensures var i := IndexOf(url, Placeholder(key)).value;
      && i + |Placeholder(key)| <= |url|
      && Substitute(url, key, value)
         == url[..i] + Stringify(value) + url[i + |Placeholder(key)|..]
  {
  }

  /** The placeholder after a colon-free prefix is the one a step replaces. */
  lemma SubstituteAfterPrefix(prefix: string, key: string, rest: string, value: ParamValue)
    requires ':' !in prefix && '$' !in Stringify(value)
    ensures Substitute(prefix + Placeholder(key) + rest, key, value) == prefix + Stringify(value) + rest
  {
    var url := prefix + Placeholder(key) + rest;
    IndexOfAfterPrefix(prefix, Placeholder(key), rest);
    assert url[..|prefix|] == prefix;
    assert url[|prefix| + |Placeholder(key)|..] == rest;
  }

  /** A decimal numeral never contains `$`. */
  lemma NumeralHasNoDollar(n: int)
    ensures '$' !in IntToString(n)
  {
    var s := IntToString(n);
    if n < 0 {
      assert s == "-" + NatToString(-n);
      assert forall i :: 1 <= i < |s| ==> s[i] == NatToString(-n)[i - 1];
    }
  }

  /** A single entry is a single step. */
  lemma OneEntry(path: string, key: string, value: ParamValue)
    ensures BuildUrl(path, Some([(key, value)])) == Substitute(path, key, value)
  {
    var entries := [(key, value)];
    assert entries[1..] == [];
    assert SubstituteAll(path, entries) == SubstituteAll(Substitute(path, key, value), []);
  }

  /** The url of one listing. */
  lemma ListingUrl(n: int)
    ensures BuildUrl(ListingPath, Some([("id", PNum(n))])) == "/api/listings/" + IntToString(n)
  {
    var prefix := "/api/listings/";
    NumeralHasNoDollar(n);
    assert ':' !in prefix;
    assert ListingPath == prefix + Placeholder("id") + "";
    SubstituteAfterPrefix(prefix, "id", "", PNum(n));
    OneEntry(ListingPath, "id", PNum(n));
    assert prefix + IntToString(n) + "" == prefix + IntToString(n);
  }

  /** The url of a chat's messages. */
  lemma MessagesUrl(n: int)
    ensures BuildUrl(MessagesPath, Some([("id", PNum(n))])) == "/api/chats/" + IntToString(n) + "/messages"
  {
    var prefix := "/api/chats/";
    NumeralHasNoDollar(n);
    assert ':' !in prefix;
    assert MessagesPath == prefix + Placeholder("id") + "/messages";
    SubstituteAfterPrefix(prefix, "id", "/messages", PNum(n));
    OneEntry(MessagesPath, "id", PNum(n));
  }

  /** The server reads the id segment of a built listing url back as the same id. */
  lemma ListingUrlRoundTrip(n: int)
    ensures var url := BuildUrl(ListingPath, Some([("id", PNum(n))]));
      |url| > |"/api/listings/"| && StringToNumber(url[|"/api/listings/"|..]) == Some(n)
  {
    ListingUrl(n);
    NumberOfString(n);
    var url := BuildUrl(ListingPath, Some([("id", PNum(n))]));
    assert url[|"/api/listings/"|..] == IntToString(n);
  }

  /** Text from the value that looks like a replacement pattern is expanded,
      not inserted literally: the value `$&` puts the placeholder back. */
  lemma DollarAmpersandKeepsPlaceholder(prefix: string, rest: string)
    requires ':' !in prefix
    ensures Substitute(prefix + Placeholder("id") + rest, "id", PStr("$&")) == prefix + Placeholder("id") + rest
  {
    var url := prefix + Placeholder("id") + rest;
    IndexOfAfterPrefix(prefix, Placeholder("id"), rest);
    assert url[..|prefix|] == prefix;
    assert url[|prefix| + 3..] == rest;
    var rep: string := "$&";
    assert rep[2..] == "";
    assert Expand(rep, Placeholder("id"), prefix, rest) == Placeholder("id");
  }
}

=== FILE: ChatDetail.dfy ===
/** The chat screen's decision logic: who is the seller, which listing-status
    actions it offers, what a status change sends, and when typed text is sent.
    Screen effects are returned as a list of requests instead of performed. */
module ChatDetail {
  import opened Common
  import opened Text
  import opened Js
  import opened Schema
  import opened Storage
  import opened Routes

  /** The chat whose id is the route's `:id`; `chatId` is `None` when
      `Number(params.id)` is NaN, and `chats` is `None` before they load. */
  function CurrentChat(chats: Option<seq<ChatView>>, chatId: Option<int>): (r: Option<ChatView>)
    ensures r.Some? ==> chats.Some? && chatId.Some? && r.value in chats.value && r.value.chat.id == chatId.value
    ensures r.None? <==>
      (chats.None? || chatId.None? || forall j :: 0 <= j < |chats.value| ==> chats.value[j].chat.id != chatId.value)
  {
    if chats.None? || chatId.None? then None
    else FirstWhere(chats.value, (v: ChatView) => v.chat.id == chatId.value)
  }

  /** `currentChat?.sellerId === user?.id`: with neither a chat nor a user
      both sides are `undefined` and the comparison holds. */
  function IsSeller(chat: Option<ChatView>, user: Option<int>): (b: bool)
    ensures chat.Some? && user.Some? ==> (b <==> chat.value.chat.sellerId == user.value)
    ensures chat.Some? != user.Some? ==> !b
    ensures chat.None? && user.None? ==> b
  {
    match (chat, user)
    case (Some(v), Some(u)) => v.chat.sellerId == u
    case (None, None) => true
    case _ => false
  }

  /** `user?.id || 1`. */
  function CurrentUserId(user: Option<int>): (id: int)
    ensures id != 0
    ensures user.Some? && user.value != 0 ==> id == user.value
    ensures user.None? || user.value == 0 ==> id == DefaultUserId
  {
    if user.Some? && user.value != 0 then user.value else DefaultUserId
  }

  /** A message is drawn as the user's own iff its sender is the current user id. */
  function IsMine(m: Message, user: Option<int>): (b: bool)
    ensures user.Some? && user.value != 0 ==> (b <==> m.senderId == user.value)
    ensures user.None? ==> (b <==> m.senderId == DefaultUserId)
  {
    m.senderId == CurrentUserId(user)
  }

  /** The statuses `handleStatusUpdate` accepts. */
  datatype NewStatus = Sold | Rented | Available {
    function Text(): string {
      match this
      case Sold => "sold"
      case Rented => "rented"
      case Available => "available"
    }
  }

  /** The header buttons next to the menu. */
  datatype StatusButton = MarkAction | ConfirmReturn

  /** The header's status buttons: "Mark Action" for the seller of an
      available listing, "Confirm Return" for the seller of a rented one. */
  function HeaderActions(isSeller: bool, listing: Option<Listing>): (bs: seq<StatusButton>)
    ensures MarkAction in bs <==> isSeller && listing.Some? && listing.value.status == "available"
    ensures ConfirmReturn in bs <==> isSeller && listing.Some? && listing.value.status == "rented"
    ensures |bs| <= 1
  {
    if isSeller && listing.Some? && listing.value.status == "available" then [MarkAction]
    else if isSeller && listing.Some? && listing.value.status == "rented" then [ConfirmReturn]
    else []
  }

  /** The one status the modal is meant to offer: "sold" for a sell-type
      listing, "rented" for anything else, including a missing listing. The
      screen as rendered fails on the second case; see `ModalAsWritten`. */
  function ModalOption(listing: Option<Listing>): (s: NewStatus)
    ensures s == Sold <==> listing.Some? && listing.value.listingType == "sell"
    ensures s != Available
  {
    if listing.Some? && listing.value.listingType == "sell" then Sold else Rented
  }

  /** The modal as the screen renders it. Its "Mark as Rented" button draws a
      `Calendar` icon that ChatDetail.tsx never imports, so rendering the modal
      for a listing not of type "sell" throws a ReferenceError and the screen
      is torn down before the button can be pressed; `None` is that failure. */
  function ModalAsWritten(listing: Option<Listing>): (s: Option<NewStatus>)
    ensures s.Some? <==> listing.Some? && listing.value.listingType == "sell"
    ensures s.Some? ==> s == Some(ModalOption(listing)) && s.value == Sold
  {
    if listing.Some? && listing.value.listingType == "sell" then Some(Sold) else None
  }

  /** What pressing a header button leads to: the modal's option after
      "Mark Action", "available" after "Confirm Return". */
  function ButtonStatus(b: StatusButton, listing: Option<Listing>): NewStatus {
    match b
    case MarkAction => ModalOption(listing)
    case ConfirmReturn => Available
  }

  /** The statuses the screen lets the user set on the chat's listing. */
  function OfferedStatuses(isSeller: bool, listing: Option<Listing>): set<NewStatus> {
    set b | b in HeaderActions(isSeller, listing) :: ButtonStatus(b, listing)
  }

  /** `ButtonStatus` with the modal as rendered; `None` when the modal fails. */
  function ButtonStatusAsWritten(b: StatusButton, listing: Option<Listing>): Option<NewStatus> {
    match b
    case MarkAction => ModalAsWritten(listing)
    case ConfirmReturn => Some(Available)
  }

  /** The statuses the screen as rendered lets the user set. */
  function OfferedStatusesAsWritten(isSeller: bool, listing: Option<Listing>): set<NewStatus> {
    set b | b in HeaderActions(isSeller, listing) && ButtonStatusAsWritten(b, listing).Some?
      :: ButtonStatusAsWritten(b, listing).value
  }

  /** A request the screen issues. */
  datatype Effect =
    | UpdateListing(listingId: nat, status: string)
    | SendMessage(chatId: Option<int>, content: string)

  /** `handleSend(text)`: nothing when the text is empty or whitespace only. */
  function HandleSend(chatId: Option<int>, text: string): (es: seq<Effect>)
    ensures IsBlank(text) ==> es == []
    ensures !IsBlank(text) ==> es == [SendMessage(chatId, text)]
  {
    TrimEmptyIffBlank(text);
    if Trim(text) == "" then [] else [SendMessage(chatId, text)]
  }

  const SystemPrefix: string := "[System] This item has been marked as "

  /** The chat message announcing a status change: never blank, so the send
      guard lets it through, and the status can be read back from it. */
  function SystemMessage(s: NewStatus): (m: string)
    ensures !IsBlank(m)
    ensures |m| == |SystemPrefix| + |s.Text()| + 1
    ensures m[..|SystemPrefix|] == SystemPrefix && m[|SystemPrefix|..|m| - 1] == s.Text()
  {
    var m := SystemPrefix + s.Text() + ".";
    assert m[0] == '[';
    assert m[|SystemPrefix|..|m| - 1] == s.Text();
    m
  }

  /** `handleStatusUpdate(s)`: without a listing nothing happens; otherwise the
      listing's status is updated and the announcement is sent. */
  function HandleStatusUpdate(chatId: Option<int>, listing: Option<Listing>, s: NewStatus): (es: seq<Effect>)
    ensures listing.None? ==> es == []
    ensures listing.Some? ==> |es| >= 1 && es[0] == UpdateListing(listing.value.id, s.Text())
    ensures listing.Some? ==> es[1..] == HandleSend(chatId, SystemMessage(s))
  {
    if listing.None? then [] else [UpdateListing(listing.value.id, s.Text())] + HandleSend(chatId, SystemMessage(s))
  }

  // ------------------------------------------------------------ properties

  /** With the modal as intended, the seller of an available listing may set
      it only to the status its type allows, the seller of a rented one only back to available, and
      nobody else, and no other listing status, is offered anything. */
  lemma StatusGating(isSeller: bool, listing: Option<Listing>)
    ensures !isSeller || listing.None? ==> OfferedStatuses(isSeller, listing) == {}
    ensures isSeller && listing.Some? && listing.value.status == "available" ==>
      OfferedStatuses(isSeller, listing) == {if listing.value.listingType == "sell" then Sold else Rented}
    ensures isSeller && listing.Some? && listing.value.status == "rented" ==>
      OfferedStatuses(isSeller, listing) == {Available}
    ensures listing.Some? && listing.value.status != "available" && listing.value.status != "rented" ==>
      OfferedStatuses(isSeller, listing) == {}
  {
    var bs := HeaderActions(isSeller, listing);
    if isSeller && listing.Some? && listing.value.status == "available" {
      assert bs == [MarkAction];
      assert ButtonStatus(MarkAction, listing) in OfferedStatuses(isSeller, listing);
    } else if isSeller && listing.Some? && listing.value.status == "rented" {
      assert bs == [ConfirmReturn];
      assert ButtonStatus(ConfirmReturn, listing) in OfferedStatuses(isSeller, listing);
    } else {
      assert bs == [];
    }
  }

  /** A sold listing offers no action, so "sold" is final on this screen. */
  lemma SoldIsFinal(isSeller: bool, l: Listing)
    requires l.status == "sold"
    ensures OfferedStatuses(isSeller, Some(l)) == {}
  {
    StatusGating(isSeller, Some(l));
  }

  /** The announcement is never blank, so it is always sent with the update. */
  lemma SystemMessageIsSent(chatId: Option<int>, l: Listing, s: NewStatus)
    ensures HandleStatusUpdate(chatId, Some(l), s)
      == [UpdateListing(l.id, s.Text()), SendMessage(chatId, SystemMessage(s))]
  {
  }

  /** As rendered, the modal never lets anyone mark a listing as rented: the
      seller of an available listing that is not of type "sell" is offered
      nothing, where the intended screen offers "rented". */
  lemma RentedNeverChosenFromModal(isSeller: bool, listing: Option<Listing>)
    ensures Rented !in OfferedStatusesAsWritten(isSeller, listing)
    ensures isSeller && listing.Some? && listing.value.status == "available" && listing.value.listingType != "sell" ==>
      OfferedStatusesAsWritten(isSeller, listing) == {} && OfferedStatuses(isSeller, listing) == {Rented}
  {
    StatusGating(isSeller, listing);
    var bs := HeaderActions(isSeller, listing);
    if isSeller && listing.Some? && listing.value.status == "available" && listing.value.listingType != "sell" {
      assert bs == [MarkAction];
      assert ButtonStatusAsWritten(MarkAction, listing).None?;
    }
  }

  /** The store after the server has handled one request the screen issued,
      as `user` (the hook sends `user?.id || 1` as the sender). */
  function Perform(db: Db, e: Effect, user: Option<int>, now: Timestamp): Db {
    match e
    case UpdateListing(id, status) => UpdateListingStatus(db, id, status).0
    case SendMessage(chatId, content) =>
      SendMessageRoute(db, chatId, Some(content), Num(CurrentUserId(user)), now).0
  }

  function PerformAll(db: Db, es: seq<Effect>, user: Option<int>, now: Timestamp): Db
    decreases |es|
  {
    if |es| == 0 then db else PerformAll(Perform(db, es[0], user, now), es[1..], user, now)
  }

  /** What the server stores for a message the screen sends. */
  lemma SendStores(db: Db, chatId: int, text: string, user: Option<int>, now: Timestamp)
    requires text != "" && IsInt4(chatId) && IsInt4(CurrentUserId(user))
    ensures var db' := Perform(db, SendMessage(Some(chatId), text), user, now);
      && db'.listings == db.listings
      && |db'.messages| == |db.messages| + 1
      && var m := db'.messages[|db.messages|];
      && m.chatId == chatId && m.content == text && m.senderId == CurrentUserId(user)
  {
    var sender := Num(CurrentUserId(user));
    assert Truthy(sender) && ToNumber(sender) == Some(CurrentUserId(user));
    var (db', reply) := SendMessageRoute(db, Some(chatId), Some(text), sender, now);
    assert reply.Reply?;
    assert db'.messages == db.messages + [reply.body];
  }

  /** A typed message that is sent is stored under the chat with the current
      user as sender, and is then drawn as the user's own. */
  lemma SentTextIsMine(db: Db, chatId: int, text: string, user: Option<int>, now: Timestamp)
    requires !IsBlank(text) && IsInt4(chatId) && IsInt4(CurrentUserId(user))
    ensures var db' := PerformAll(db, HandleSend(Some(chatId), text), user, now);
      && |db'.messages| == |db.messages| + 1
      && var m := db'.messages[|db.messages|];
      && m.chatId == chatId && m.content == text && IsMine(m, user)
  {
    assert text != "";
    var e := SendMessage(Some(chatId), text);
    assert HandleSend(Some(chatId), text) == [e];
    assert PerformAll(db, [e], user, now) == PerformAll(Perform(db, e, user, now), [], user, now);
    SendStores(db, chatId, text, user, now);
  }

  /** After the server handles a status change from this screen, the listing
      carries the new status and the chat's newest message announces it. */
  lemma StatusUpdateReachesServer(db: Db, chatId: int, l: Listing, s: NewStatus, user: Option<int>, now: Timestamp)
    requires GetListing(db, l.id).Some? && IsInt4(chatId) && IsInt4(CurrentUserId(user))
    ensures var db' := PerformAll(db, HandleStatusUpdate(Some(chatId), Some(l), s), user, now);
      && GetListing(db', l.id).Some? && GetListing(db', l.id).value.status == s.Text()
      && |db'.messages| == |db.messages| + 1
      && db'.messages[|db.messages|].content == SystemMessage(s)
      && db'.messages[|db.messages|].chatId == chatId
  {
    SystemMessageIsSent(Some(chatId), l, s);
    var e0 := UpdateListing(l.id, s.Text());
    var e1 := SendMessage(Some(chatId), SystemMessage(s));
    var es := [e0, e1];
    assert es[1..] == [e1] && es[1..][1..] == [];
    var db1 := Perform(db, e0, user, now);
    assert PerformAll(db, es, user, now) == PerformAll(db1, [e1], user, now);
    assert PerformAll(db1, [e1], user, now) == PerformAll(Perform(db1, e1, user, now), [], user, now);
    assert SystemMessage(s)[0] == '[';
    SendStores(db1, chatId, SystemMessage(s), user, now);
    assert db1.messages == db.messages;
  }


}

=== FILE: Common.dfy ===
/** Small shared vocabulary: optional values, results, and the sequence
    operations the rest of the model uses for table scans and list filters. */
module Common {

  /** A value that may be absent (JavaScript's `undefined` / SQL's NULL). */
  datatype Option<T> = None | Some(value: T) {
    /** The held value, or `default` when there is none. */
    function GetOr(default: T): T {
      if Some? then value else default
    }
  }

  /** A computation that either produced a value or raised an error. */
  datatype Result<R, E> = Success(value: R) | Failure(error: E)

  /** The elements of `s` that satisfy `p`, in their original order. */
  function Filter<T>(s: seq<T>, p: T -> bool): (r: seq<T>)
    ensures |r| <= |s|
    ensures forall x :: x in r ==> x in s && p(x)
    ensures forall x :: x in s && p(x) ==> x in r
    decreases |s|
  {
    if |s| == 0 then []
    else (if p(s[0]) then [s[0]] else []) + Filter(s[1..], p)
  }

  /** Filtering twice is filtering once by the conjunction. */
  lemma {:induction false} FilterFuse<T>(s: seq<T>, p: T -> bool, q: T -> bool, pq: T -> bool)
    requires forall x :: pq(x) == (p(x) && q(x))
    ensures Filter(Filter(s, p), q) == Filter(s, pq)
    decreases |s|
  {
    if |s| > 0 {
      FilterFuse(s[1..], p, q, pq);
      assert Filter(s, p) == (if p(s[0]) then [s[0]] else []) + Filter(s[1..], p);
      if p(s[0]) {
        assert Filter(s, p)[0] == s[0];
        assert Filter(s, p)[1..] == Filter(s[1..], p);
      } else {
        assert Filter(s, p) == Filter(s[1..], p);
      }
    }
  }

  /** Two predicates that agree everywhere select the same elements. */
  lemma {:induction false} FilterCongruent<T>(s: seq<T>, p: T -> bool, q: T -> bool)
    requires forall x :: p(x) == q(x)
    ensures Filter(s, p) == Filter(s, q)
    decreases |s|
  {
    if |s| > 0 {
      FilterCongruent(s[1..], p, q);
    }
  }

  /** `a` is an order-preserving subsequence of `b`. */
  predicate IsSubseq<T(==)>(a: seq<T>, b: seq<T>)
    decreases |b|
  {
    if |a| == 0 then true
    else if |b| == 0 then false
    else (a[0] == b[0] && IsSubseq(a[1..], b[1..])) || IsSubseq(a, b[1..])
  }

  /** A filter keeps the survivors in their original relative order. */
  lemma {:induction false} FilterIsSubseq<T>(s: seq<T>, p: T -> bool)
    ensures IsSubseq(Filter(s, p), s)
    decreases |s|
  {
    if |s| > 0 {
      FilterIsSubseq(s[1..], p);
      var r := Filter(s, p);
      if p(s[0]) {
        assert r[0] == s[0] && r[1..] == Filter(s[1..], p);
      } else {
        assert r == Filter(s[1..], p);
      }
    }
  }

  /** The position of the first element satisfying `p`. */
  function FirstIndex<T>(s: seq<T>, p: T -> bool): (r: Option<nat>)
    ensures r.Some? ==> r.value < |s| && p(s[r.value])
    ensures r.Some? ==> forall j :: 0 <= j < r.value ==> !p(s[j])
    ensures r.None? <==> forall j :: 0 <= j < |s| ==> !p(s[j])
    decreases |s|
  {
    if |s| == 0 then None
    else if p(s[0]) then Some(0)
    else
      match FirstIndex(s[1..], p)
      case None => None
      case Some(k) => Some(k + 1)
  }

  /** An index before which nothing satisfies `p` is the first index. */
  lemma FirstIndexAt<T>(s: seq<T>, p: T -> bool, i: nat)
    requires i < |s| && p(s[i]) && forall j :: 0 <= j < i ==> !p(s[j])
    ensures FirstIndex(s, p) == Some(i)
  {
  }

  /** The first element satisfying `p` (the single row a keyed SQL lookup returns). */
  function FirstWhere<T>(s: seq<T>, p: T -> bool): (r: Option<T>)
    ensures r.Some? ==> r.value in s && p(r.value)
    ensures r.None? <==> forall j :: 0 <= j < |s| ==> !p(s[j])
  {
    match FirstIndex(s, p)
    case None => None
    case Some(i) => Some(s[i])
  }
}

=== FILE: HomeScreen.dfy ===
/** The mobile home screen's filter over the fetched listings: the active
    category, a case-insensitive title search, and the removal of sold and
    rented items. */
module HomeScreen {
  import opened Common
  import opened Text
  import opened Schema
  import opened Storage

  const AllCategories: string := "All"

  /** Still on offer: neither sold nor rented. */
  predicate OnOffer(l: Listing) {
    l.status != "sold" && l.status != "rented"
  }

  predicate InCategory(l: Listing, category: string) {
    category != AllCategories ==> l.category == category
  }

  predicate MatchesSearch(l: Listing, term: string) {
    term != "" ==> ContainsIgnoringCase(l.title, term)
  }

  /** A listing the screen shows for this category and search term. */
  predicate Visible(l: Listing, category: string, term: string) {
    InCategory(l, category) && MatchesSearch(l, term) && OnOffer(l)
  }

  /** The three filters as the screen applies them, one after the other. */
  function Staged(rows: seq<Listing>, category: string, term: string): seq<Listing> {
    var byCategory := if category != AllCategories then Filter(rows, (l: Listing) => l.category == category) else rows;
    var bySearch := if term != "" then Filter(byCategory, (l: Listing) => ContainsIgnoringCase(l.title, term)) else byCategory;
    Filter(bySearch, OnOffer)
  }

  /** Applying the three filters in turn is one filter by `Visible`. */
  lemma StagedIsOneFilter(rows: seq<Listing>, category: string, term: string)
    ensures Staged(rows, category, term) == Filter(rows, (l: Listing) => Visible(l, category, term))
  {
    var vis := (l: Listing) => Visible(l, category, term);
    var pc := (l: Listing) => l.category == category;
    var ps := (l: Listing) => ContainsIgnoringCase(l.title, term);
    if category != AllCategories && term != "" {
      var pcs := (l: Listing) => pc(l) && ps(l);
      FilterFuse(rows, pc, ps, pcs);
      FilterFuse(rows, pcs, OnOffer, vis);
    } else if category != AllCategories {
      FilterFuse(rows, pc, OnOffer, vis);
    } else if term != "" {
      FilterFuse(rows, ps, OnOffer, vis);
    } else {
      FilterCongruent(rows, OnOffer, vis);
    }
  }

  /** The `queryFn` result for the fetched `data` (`None` for null). */
  function FilterListings(data: Option<seq<Listing>>, category: string, term: string): (r: seq<Listing>)
    ensures r == Filter(data.GetOr([]), (l: Listing) => Visible(l, category, term))
    ensures IsSubseq(r, data.GetOr([]))
    ensures forall l :: l in r <==> l in data.GetOr([]) && Visible(l, category, term)
    ensures forall l :: l in r ==> OnOffer(l)
    ensures category != AllCategories ==> forall l :: l in r ==> l.category == category
    ensures term != "" ==> forall l :: l in r ==> ContainsIgnoringCase(l.title, term)
    ensures category == AllCategories && term == "" ==> r == Filter(data.GetOr([]), OnOffer)
  {
    var rows := data.GetOr([]);
    StagedIsOneFilter(rows, category, term);
    FilterIsSubseq(rows, (l: Listing) => Visible(l, category, term));
    Staged(rows, category, term)
  }

  /** The screen fetches `/api/listings` without parameters and filters on the
      client: it shows exactly the store's listings that are visible for the
      chosen category and term. */
  lemma ShowsVisibleListingsOfStore(db: Db, category: string, term: string)
    ensures var shown := FilterListings(Some(GetListings(db, None, None)), category, term);
      forall l :: l in shown <==> l in db.listings && Visible(l, category, term)
  {
  }
}

=== FILE: Js.dfy ===
/** The JavaScript value semantics the request handlers rely on: truthiness
    (`!x`, `x || d`) and numeric conversion (`Number(x)`, `isNaN`). Only integer
    numbers are represented. */
module Js {
  import opened Common
  import opened Text

  /** A field of a parsed JSON request body or query string. `Obj` is any
      non-array object. */
  datatype JsValue = Undefined | Null | Bool(b: bool) | Num(n: int) | Str(s: string) | Obj

  /** JavaScript truthiness. */
  predicate Truthy(v: JsValue) {
    match v
    case Undefined => false
    case Null => false
    case Bool(b) => b
    case Num(n) => n != 0
    case Str(s) => s != ""
    case Obj => true
  }

  /** `Number(s)` for a string: surrounding whitespace is ignored, an empty
      remainder is 0, and a decimal integer with an optional sign is its
      value; anything else is NaN (`None`). */
  function StringToNumber(s: string): (r: Option<int>)
    ensures IsBlank(s) ==> r == Some(0)
  {
    var t := Trim(s);
    TrimEmptyIffBlank(s);
    if t == "" then Some(0)
    else if AllDigits(t) then Some(ParseDigits(t))
    else if |t| > 1 && t[0] == '-' && AllDigits(t[1..]) then Some(-(ParseDigits(t[1..]) as int))
    else if |t| > 1 && t[0] == '+' && AllDigits(t[1..]) then Some(ParseDigits(t[1..]))
    else None
  }

  /** `Number(v)`; `None` is NaN, so `isNaN(Number(v))` is `ToNumber(v).None?`. */
  function ToNumber(v: JsValue): (r: Option<int>)
    ensures v.Num? ==> r == Some(v.n)
    ensures v.Undefined? || v.Obj? ==> r.None?
  {
    match v
    case Undefined => None
    case Null => Some(0)
    case Bool(b) => Some(if b then 1 else 0)
    case Num(n) => Some(n)
    case Str(s) => StringToNumber(s)
    case Obj => None
  }

  /** `Number(String(n)) == n`: a path segment built from an integer id reads back as that id. */
  lemma {:induction false} NumberOfString(n: int)
    ensures StringToNumber(IntToString(n)) == Some(n)
  {
    var s := IntToString(n);
    var digits := NatToString(if n < 0 then -n else n);
    ParseNatToString(if n < 0 then -n else n);
    assert !IsWhitespace(s[0]) && !IsWhitespace(s[|s| - 1]);
    assert TrimStart(s) == s;
    assert Trim(s) == s;
    if n < 0 {
      assert s[1..] == digits;
      assert !AllDigits(s);
    }
  }
}

=== FILE: NewestFirst.dfy ===
/** Ordering of listings by `createdAt`, newest first (the `ORDER BY
    created_at DESC` of the listings query). Rows with equal timestamps may
    come out in any order in the database; here they keep insertion order
    relative to each other only as a by-product of the sort chosen. */
module NewestFirst {
  import opened Schema

  predicate Sorted(s: seq<Listing>) {
    forall i, j :: 0 <= i < j < |s| ==> s[i].createdAt >= s[j].createdAt
  }

  /** Insert `x` into a newest-first sequence. */
  function Insert(x: Listing, s: seq<Listing>): (r: seq<Listing>)
    requires Sorted(s)
    ensures Sorted(r)
    ensures multiset(r) == multiset(s) + multiset{x}
    ensures |r| == |s| + 1
    ensures r[0] == x || (|s| > 0 && r[0] == s[0])
    decreases |s|
  {
    if |s| == 0 || x.createdAt >= s[0].createdAt then [x] + s
    else
      var rest := Insert(x, s[1..]);
      assert s == [s[0]] + s[1..];
      [s[0]] + rest
  }

  /** A newest-first permutation of `s`. */
  function Sort(s: seq<Listing>): (r: seq<Listing>)
    ensures Sorted(r)
    ensures multiset(r) == multiset(s)
    decreases |s|
  {
    if |s| == 0 then []
    else
      assert s == [s[0]] + s[1..];
      Insert(s[0], Sort(s[1..]))
  }
}

=== FILE: Reachability.dfy ===
/** What holds of every store the HTTP API can build from an empty database:
    serial ids, at most one chat per (listing, buyer), and rental records
    whose OTPs are four-digit numerals and that are never late nor penalised. */
module Reachability {
  import opened Common
  import opened Js
  import opened Schema
  import opened Storage
  import opened Routes
  import RentalFacts

  /** The requests that write to the store, each with the time it arrives. */
  datatype Request =
    | AddListing(ins: InsertListing, now: Timestamp)
    | SetListingStatus(listingId: int, status: string)
    | OpenChat(chatListingId: JsValue, buyerId: JsValue, now: Timestamp)
    | Send(chatId: Option<int>, content: Option<string>, senderId: JsValue, now: Timestamp)
    | NewRental(rentalChatId: int, rentalListingId: int, returnDate: Timestamp, handover: Draw, back: Draw, now: Timestamp)
    | Confirm(rentalId: int, body: ConfirmBody)

  /** The store after one request; a failed request leaves it as it was. */
  function Handle(db: Db, req: Request): Db {
    match req
    case AddListing(ins, now) => CreateListing(db, ins, now).0
    case SetListingStatus(id, status) => UpdateListingStatus(db, id, status).0
    case OpenChat(lid, buyer, now) => CreateChatRoute(db, lid, buyer, now).0
    case Send(cid, content, sender, now) => SendMessageRoute(db, cid, content, sender, now).0
    case NewRental(cid, lid, d, h, b, now) => CreateRentalRoute(db, cid, lid, d, h, b, now).0
    case Confirm(id, body) =>
      match ConfirmRoute(db, id, body)
      case Failure(_) => db
      case Success((db', _)) => db'
  }

  /** The store after the requests in order. */
  function Run(db: Db, reqs: seq<Request>): Db
    decreases |reqs|
  {
    if |reqs| == 0 then db else Run(Handle(db, reqs[0]), reqs[1..])
  }

  /** A rental record as the API creates and keeps it. */
  predicate WellFormedRental(r: RentalReturn) {
    && r.handoverOtp.Some? && IsFourDigitOtp(r.handoverOtp.value)
    && r.returnOtp.Some? && IsFourDigitOtp(r.returnOtp.value)
    && r.status != Late && !r.isLate && r.penalty == 0
  }

  predicate Inv(db: Db) {
    && SerialIds(db)
    && UniqueChatKeys(db)
    && forall i :: 0 <= i < |db.rentals| ==> WellFormedRental(db.rentals[i])
  }

  lemma EmptyDbInv()
    ensures Inv(EmptyDb)
  {
  }

  /** A confirmation keeps a well-formed record well formed. */
  lemma ConfirmKeepsWellFormed(r: RentalReturn, confirmedBy: string, action: string,
                               date: Option<Timestamp>, otp: Option<string>)
    requires WellFormedRental(r)
    ensures WellFormedRental(ConfirmStep(r, confirmedBy, action, date, otp))
  {
    RentalFacts.StatusChangesOnlyByOtp(r, confirmedBy, action, date, otp);
  }

  /** Every request keeps the invariant. */
  lemma HandleKeepsInv(db: Db, req: Request)
    requires Inv(db)
    ensures Inv(Handle(db, req))
  {
    var db' := Handle(db, req);
    match req
    case AddListing(ins, now) =>
    case SetListingStatus(id, status) =>
    case OpenChat(lid, buyer, now) =>
      CreateChatKeepsKeysUnique(db, lid, buyer, now);
    case Send(cid, content, sender, now) =>
    case NewRental(cid, lid, d, h, b, now) =>
      assert forall i :: 0 <= i < |db.rentals| ==> db'.rentals[i] == db.rentals[i];
    case Confirm(id, body) =>
      match ConfirmRoute(db, id, body)
      case Failure(_) =>
      case Success(v) =>
        var i := RentalIndex(db.rentals, id).value;
        ConfirmKeepsWellFormed(db.rentals[i], body.confirmedBy, body.action, body.date, OtpText(body.otp));
        assert forall j :: 0 <= j < |db'.rentals| && j != i ==> db'.rentals[j] == db.rentals[j];
  }

  /** Every sequence of requests keeps the invariant. */
  lemma {:induction false} RunKeepsInv(db: Db, reqs: seq<Request>)
    requires Inv(db)
    ensures Inv(Run(db, reqs))
    decreases |reqs|
  {
    if |reqs| > 0 {
      HandleKeepsInv(db, reqs[0]);
      RunKeepsInv(Handle(db, reqs[0]), reqs[1..]);
    }
  }

  /** In any store the API builds from an empty database, every rental record
      has two four-digit OTPs, is not late and carries no penalty, and no
      (listing, buyer) pair has two chats. */
  lemma ReachableStoresAreWellFormed(reqs: seq<Request>)
    ensures var db := Run(EmptyDb, reqs);
      && SerialIds(db) && UniqueChatKeys(db)
      && forall i :: 0 <= i < |db.rentals| ==>
           && db.rentals[i].handoverOtp.Some? && IsFourDigitOtp(db.rentals[i].handoverOtp.value)
           && db.rentals[i].returnOtp.Some? && IsFourDigitOtp(db.rentals[i].returnOtp.value)
           && db.rentals[i].status != Late && !db.rentals[i].isLate && db.rentals[i].penalty == 0
  {
    EmptyDbInv();
    RunKeepsInv(EmptyDb, reqs);
    var db := Run(EmptyDb, reqs);
    assert forall i :: 0 <= i < |db.rentals| ==> WellFormedRental(db.rentals[i]);
  }

  /** The status column of every record the API builds holds "pending",
      "active" or "completed", never the documented "late". */
  lemma ReachableStatusTexts(reqs: seq<Request>)
    ensures var db := Run(EmptyDb, reqs);
      forall i :: 0 <= i < |db.rentals| ==>
        db.rentals[i].status.Text() in ["pending", "active", "completed"]
  {
    ReachableStoresAreWellFormed(reqs);
  }
}

=== FILE: RentalFacts.dfy ===
/** What one call of `confirmRentalReturn` does to a rental record, action by
    action, and what any sequence of calls can and cannot do. The store trusts
    `confirmedBy` and checks no status: these facts state the behaviour as it
    is, including the transitions a stricter protocol would forbid. */
module RentalFacts {
  import opened Common
  import opened Schema
  import opened Storage

  // ------------------------------------------------------------ one call

  /** "start" sets the caller's `*Started` flag and nothing else; every
      `confirmedBy` other than "buyer" counts as the seller. */
  lemma StartSetsCallerFlag(r: RentalReturn, confirmedBy: string, date: Option<Timestamp>, otp: Option<string>)
    ensures ConfirmStep(r, confirmedBy, "start", date, otp)
      == if confirmedBy == "buyer" then r.(buyerStarted := true) else r.(sellerStarted := true)
  {
  }

  /** "end" sets the caller's `*Confirmed` flag and nothing else. */
  lemma EndSetsCallerFlag(r: RentalReturn, confirmedBy: string, date: Option<Timestamp>, otp: Option<string>)
    ensures ConfirmStep(r, confirmedBy, "end", date, otp)
      == if confirmedBy == "buyer" then r.(buyerConfirmed := true) else r.(sellerConfirmed := true)
  {
  }

  /** "end" is accepted whatever the status, for instance while the rental is
      still pending and no OTP has been verified. */
  lemma EndAcceptedWhilePending(r: RentalReturn, date: Option<Timestamp>, otp: Option<string>)
    requires r.status == Pending && !r.handoverOtpVerified && !r.returnOtpVerified
    ensures ConfirmStep(r, "buyer", "end", date, otp).buyerConfirmed
    ensures ConfirmStep(r, "buyer", "end", date, otp).status == Pending
  {
  }

  /** "date" with a date moves `returnDate` and sets only the caller's agreement flag. */
  lemma DateSetsCallerAgreement(r: RentalReturn, confirmedBy: string, d: Timestamp, otp: Option<string>)
    ensures ConfirmStep(r, confirmedBy, "date", Some(d), otp)
      == if confirmedBy == "buyer" then r.(returnDate := d, buyerAgreedDate := true)
         else r.(returnDate := d, sellerAgreedDate := true)
  {
  }

  /** "date" without a date changes nothing. */
  lemma DateWithoutValueIsNoOp(r: RentalReturn, confirmedBy: string, otp: Option<string>)
    ensures ConfirmStep(r, confirmedBy, "date", None, otp) == r
  {
  }

  /** A new date from one party leaves the other party's earlier agreement in
      place: both flags end up true for a date the counterpart never saw. */
  lemma DateKeepsCounterpartAgreement(r: RentalReturn, d: Timestamp, otp: Option<string>)
    requires r.sellerAgreedDate && d != r.returnDate
    ensures var r' := ConfirmStep(r, "buyer", "date", Some(d), otp);
      r'.returnDate == d && r'.buyerAgreedDate && r'.sellerAgreedDate
  {
  }

  /** Two parties proposing different dates one after the other both end up
      agreed, on the second date. */
  lemma ConflictingDatesBothAgreed(r: RentalReturn, d1: Timestamp, d2: Timestamp, otp: Option<string>)
    requires d1 != d2
    ensures var r2 := ConfirmStep(ConfirmStep(r, "buyer", "date", Some(d1), otp), "seller", "date", Some(d2), otp);
      r2.buyerAgreedDate && r2.sellerAgreedDate && r2.returnDate == d2
  {
  }

  /** Both parties proposing the same date both end up agreed on it. */
  lemma MutualDateAgreement(r: RentalReturn, d: Timestamp, otp: Option<string>)
    ensures var r2 := ConfirmStep(ConfirmStep(r, "buyer", "date", Some(d), otp), "seller", "date", Some(d), otp);
      r2.buyerAgreedDate && r2.sellerAgreedDate && r2.returnDate == d
  {
  }

  /** An OTP equal to the handover OTP verifies the handover and makes the rental active. */
  lemma HandoverOtpActivates(r: RentalReturn, confirmedBy: string, date: Option<Timestamp>, o: string)
    requires o != "" && r.handoverOtp == Some(o)
    ensures ConfirmStep(r, confirmedBy, "verify_otp", date, Some(o))
      == r.(handoverOtpVerified := true, status := Active)
  {
  }

  /** Otherwise, an OTP equal to the return OTP verifies the return and completes the rental. */
  lemma ReturnOtpCompletes(r: RentalReturn, confirmedBy: string, date: Option<Timestamp>, o: string)
    requires o != "" && r.handoverOtp != Some(o) && r.returnOtp == Some(o)
    ensures ConfirmStep(r, confirmedBy, "verify_otp", date, Some(o))
      == r.(returnOtpVerified := true, status := Completed)
  {
  }

  /** An OTP matching neither code, or no OTP at all, changes nothing. */
  lemma OtpMismatchIsNoOp(r: RentalReturn, confirmedBy: string, date: Option<Timestamp>, otp: Option<string>)
    requires !(OtpGiven(otp) && (Some(otp.value) == r.handoverOtp || Some(otp.value) == r.returnOtp))
    ensures ConfirmStep(r, confirmedBy, "verify_otp", date, otp) == r
  {
  }

  /** When both codes coincide, the handover branch wins and the return is never verified. */
  lemma HandoverWinsOnCollision(r: RentalReturn, confirmedBy: string, date: Option<Timestamp>, o: string)
    requires o != "" && r.handoverOtp == Some(o) && r.returnOtp == Some(o) && !r.returnOtpVerified
    ensures var r' := ConfirmStep(r, confirmedBy, "verify_otp", date, Some(o));
      r'.status == Active && !r'.returnOtpVerified
  {
  }

  /** The status is not monotonic: re-entering the handover OTP on a completed
      rental makes it active again. */
  lemma CompletedBecomesActiveAgain(r: RentalReturn, confirmedBy: string, date: Option<Timestamp>, o: string)
    requires r.status == Completed && o != "" && r.handoverOtp == Some(o)
    ensures ConfirmStep(r, confirmedBy, "verify_otp", date, Some(o)).status == Active
  {
  }

  /** Re-entering the handover OTP on an active rental is a success, not a
      failed return check: the record stays active. */
  lemma RepeatedHandoverOtp(r: RentalReturn, confirmedBy: string, date: Option<Timestamp>, o: string)
    requires o != "" && r.handoverOtp == Some(o)
    ensures var r1 := ConfirmStep(r, confirmedBy, "verify_otp", date, Some(o));
      ConfirmStep(r1, confirmedBy, "verify_otp", date, Some(o)) == r1
  {
  }

  /** "reject_date" produces an empty update. */
  lemma RejectDateIsNoOp(r: RentalReturn, confirmedBy: string, date: Option<Timestamp>, otp: Option<string>)
    ensures ConfirmStep(r, confirmedBy, "reject_date", date, otp) == r
  {
  }

  /** Any action other than the four handled ones changes nothing. */
  lemma UnknownActionIsNoOp(r: RentalReturn, confirmedBy: string, action: string,
                            date: Option<Timestamp>, otp: Option<string>)
    requires action != "start" && action != "end" && action != "date" && action != "verify_otp"
    ensures ConfirmStep(r, confirmedBy, action, date, otp) == r
  {
  }

  /** Only a matching OTP changes the status, and only to active or completed. */
  lemma StatusChangesOnlyByOtp(r: RentalReturn, confirmedBy: string, action: string,
                               date: Option<Timestamp>, otp: Option<string>)
    ensures var r' := ConfirmStep(r, confirmedBy, action, date, otp);
      r'.status != r.status ==>
        && action == "verify_otp" && OtpGiven(otp)
        && ((Some(otp.value) == r.handoverOtp && r'.status == Active)
            || (Some(otp.value) == r.returnOtp && r'.status == Completed))
  {
  }

  /** The buyer's flags change only on a call that names the buyer; the seller's
      only on a call that does not. */
  lemma PartyFlagsFollowCaller(r: RentalReturn, confirmedBy: string, action: string,
                               date: Option<Timestamp>, otp: Option<string>)
    ensures var r' := ConfirmStep(r, confirmedBy, action, date, otp);
      && ((r'.buyerStarted != r.buyerStarted || r'.buyerConfirmed != r.buyerConfirmed
           || r'.buyerAgreedDate != r.buyerAgreedDate) ==> confirmedBy == "buyer")
      && ((r'.sellerStarted != r.sellerStarted || r'.sellerConfirmed != r.sellerConfirmed
           || r'.sellerAgreedDate != r.sellerAgreedDate) ==> confirmedBy != "buyer")
  {
  }

  /** Completing a rental leaves the listings table as it was: the rented
      listing is not made available again. */
  lemma CompletionLeavesListingAlone(db: Db, id: int, confirmedBy: string, date: Option<Timestamp>, o: string)
    requires ConfirmRentalReturn(db, id, confirmedBy, "verify_otp", date, Some(o)).Success?
    ensures var (db', r') := ConfirmRentalReturn(db, id, confirmedBy, "verify_otp", date, Some(o)).value;
      r'.status == Completed ==> db'.listings == db.listings
  {
  }

  // ------------------------------------------------------- many calls

  /** One confirmation request as the store receives it. */
  datatype Call = Call(confirmedBy: string, action: string, date: Option<Timestamp>, otp: Option<string>)

  /** The record after applying `calls` in order. */
  function Replay(r: RentalReturn, calls: seq<Call>): RentalReturn
    decreases |calls|
  {
    if |calls| == 0 then r
    else
      var c := calls[0];
      Replay(ConfirmStep(r, c.confirmedBy, c.action, c.date, c.otp), calls[1..])
  }

  /** No sequence of confirmations changes the OTPs, the keys, the start and
      creation times, `isLate` or `penalty`. */
  lemma {:induction false} ReplayKeepsFixedColumns(r: RentalReturn, calls: seq<Call>)
    ensures FixedColumnsKept(r, Replay(r, calls))
    decreases |calls|
  {
    if |calls| > 0 {
      var c := calls[0];
      ReplayKeepsFixedColumns(ConfirmStep(r, c.confirmedBy, c.action, c.date, c.otp), calls[1..]);
    }
  }

  /** No sequence of confirmations turns a flag back to false. */
  lemma {:induction false} ReplayKeepsFlags(r: RentalReturn, calls: seq<Call>)
    ensures FlagsKept(r, Replay(r, calls))
    decreases |calls|
  {
    if |calls| > 0 {
      var c := calls[0];
      ReplayKeepsFlags(ConfirmStep(r, c.confirmedBy, c.action, c.date, c.otp), calls[1..]);
    }
  }

  /** No sequence of confirmations produces the documented "late" status. */
  lemma {:induction false} ReplayNeverLate(r: RentalReturn, calls: seq<Call>)
    requires r.status != Late
    ensures Replay(r, calls).status != Late
    decreases |calls|
  {
    if |calls| > 0 {
      var c := calls[0];
      StatusChangesOnlyByOtp(r, c.confirmedBy, c.action, c.date, c.otp);
      ReplayNeverLate(ConfirmStep(r, c.confirmedBy, c.action, c.date, c.otp), calls[1..]);
    }
  }
}

=== FILE: Routes.dfy ===
/** The HTTP handlers over the store: request validation and the status code
    each outcome gets. Request-body fields are JSON values (`JsValue`); path
    parameters are the integers `Number(req.params.x)` yields. A handler that
    fails writes nothing. */
module Routes {
  import opened Common
  import opened Text
  import opened Js
  import opened Schema
  import opened Storage

  /** A response: a status code with a JSON body, or an error status with `{ message }`. */
  datatype Reply<T> = Reply(code: nat, body: T) | Fail(code: nat, message: string)

  /** The user id the handlers assume when none is supplied. */
  const DefaultUserId: int := 1

  /** A number the database accepts for an `integer` column: not NaN, and
      within the column's range. Any other value makes the query or insert
      throw. */
  predicate Storable(n: Option<int>) {
    n.Some? && IsInt4(n.value)
  }

  // ------------------------------------------------------------ chats

  /** `GET /api/chats?userId=`: 400 unless `Number(userId)` is a non-zero number. */
  function ListChats(db: Db, userId: JsValue): (r: Reply<seq<ChatView>>)
    ensures r.Fail? <==> ToNumber(userId).None? || ToNumber(userId) == Some(0)
    ensures r.Fail? ==> r.code == 400 && r.message == "userId required"
    ensures r.Reply? ==> r.code == 200 && r.body == GetChats(db, ToNumber(userId).value)
  {
    match ToNumber(userId)
    case None => Fail(400, "userId required")
    case Some(u) => if u == 0 then Fail(400, "userId required") else Reply(200, GetChats(db, u))
  }

  /** The buyer id `POST /api/chats` works with: `Number(buyerId)` when
      `buyerId` is truthy, the default user otherwise; `None` is NaN. */
  function ChatBuyer(buyerId: JsValue): (b: Option<int>)
    ensures !Truthy(buyerId) ==> b == Some(DefaultUserId)
    ensures b.None? <==> Truthy(buyerId) && ToNumber(buyerId).None?
    ensures Truthy(buyerId) ==> b == ToNumber(buyerId)
    ensures b.Some? && b.value != DefaultUserId ==> Truthy(buyerId) && b == ToNumber(buyerId)
  {
    if Truthy(buyerId) then ToNumber(buyerId) else Some(DefaultUserId)
  }

  /** `POST /api/chats` with body `{ listingId, buyerId }`: validate, then
      return the chat for (listing, buyer), creating it with the listing's
      seller when there is none. A listing id or buyer id the database
      cannot store (NaN, or outside the `integer` range) reaches a query that
      throws, and the handler's `catch` turns that into a 500. */
  function CreateChatRoute(db: Db, listingId: JsValue, buyerId: JsValue, now: Timestamp): (res: (Db, Reply<Chat>))
    ensures !Truthy(listingId) ==> res == (db, Fail(400, "listingId required"))
    ensures Truthy(listingId) && ChatBuyer(buyerId).None? ==>
      res == (db, Fail(400, "buyerId must be a valid number"))
    ensures Truthy(listingId) && ChatBuyer(buyerId).Some? && !Storable(ToNumber(listingId)) ==>
      res == (db, Fail(500, "Error creating chat"))
    ensures (Truthy(listingId) && ChatBuyer(buyerId).Some? && Storable(ToNumber(listingId))
             && GetListing(db, ToNumber(listingId).value).None?) ==>
      res == (db, Fail(404, "Listing not found"))
    ensures (Truthy(listingId) && ChatBuyer(buyerId).Some? && Storable(ToNumber(listingId))
             && GetListing(db, ToNumber(listingId).value).Some? && !Storable(ChatBuyer(buyerId))) ==>
      res == (db, Fail(500, "Error creating chat"))
    ensures res.1.Fail? ==> res.0 == db
    ensures res.1.Reply? <==>
      (Truthy(listingId) && Storable(ChatBuyer(buyerId)) && Storable(ToNumber(listingId))
       && GetListing(db, ToNumber(listingId).value).Some?)
    ensures res.1.Reply? && !Truthy(buyerId) ==> res.1.body.buyerId == DefaultUserId
    ensures res.1.Reply? && Truthy(buyerId) ==> Some(res.1.body.buyerId) == ToNumber(buyerId)
    ensures res.1.Reply? ==>
      && Truthy(listingId) && Storable(ChatBuyer(buyerId)) && Storable(ToNumber(listingId))
      && var lid := ToNumber(listingId).value;
      && var buyer := ChatBuyer(buyerId).value;
      && GetListing(db, lid).Some?
      && res.1.code == 201
      && res.1.body.listingId == lid && res.1.body.buyerId == buyer
      && GetChat(res.0, lid, buyer) == Some(res.1.body)
      && (GetChat(db, lid, buyer).Some? ==> res.0 == db && res.1.body == GetChat(db, lid, buyer).value)
      && (GetChat(db, lid, buyer).None? ==>
            && res.0 == db.(chats := db.chats + [res.1.body])
            && res.1.body.sellerId == GetListing(db, lid).value.sellerId)
    ensures SerialIds(db) ==> SerialIds(res.0)
  {
    if !Truthy(listingId) then (db, Fail(400, "listingId required"))
    else
      match ChatBuyer(buyerId)
      case None => (db, Fail(400, "buyerId must be a valid number"))
      case Some(buyer) =>
        if !Storable(ToNumber(listingId)) then (db, Fail(500, "Error creating chat"))
        else
          var lid := ToNumber(listingId).value;
          match GetListing(db, lid)
          case None => (db, Fail(404, "Listing not found"))
          case Some(listing) =>
            if !IsInt4(buyer) then (db, Fail(500, "Error creating chat"))
            else
            match GetChat(db, lid, buyer)
            case Some(chat) => (db, Reply(201, chat))
            case None =>
              var (db', chat) := CreateChat(db, lid, buyer, listing.sellerId, now);
              FirstWhereAfterAppend(db.chats, chat, (c: Chat) => c.listingId == lid && c.buyerId == buyer);
              (db', Reply(201, chat))
  }

  /** Appending a row to a table with no match makes that row the first match. */
  lemma FirstWhereAfterAppend<T>(s: seq<T>, x: T, p: T -> bool)
    requires FirstWhere(s, p).None? && p(x)
    ensures FirstWhere(s + [x], p) == Some(x)
  {
    var t := s + [x];
    assert forall j :: 0 <= j < |s| ==> t[j] == s[j];
    assert t[|s|] == x;
    var i := FirstIndex(t, p);
    assert i.Some? && i.value == |s|;
  }

  /** At most one chat per (listing, buyer). */
  predicate UniqueChatKeys(db: Db) {
    forall i, j :: 0 <= i < j < |db.chats| ==>
      !(db.chats[i].listingId == db.chats[j].listingId && db.chats[i].buyerId == db.chats[j].buyerId)
  }

  /** Get-or-create never makes a second chat for the same listing and buyer. */
  lemma CreateChatKeepsKeysUnique(db: Db, listingId: JsValue, buyerId: JsValue, now: Timestamp)
    requires UniqueChatKeys(db)
    ensures UniqueChatKeys(CreateChatRoute(db, listingId, buyerId, now).0)
  {
    var (db', reply) := CreateChatRoute(db, listingId, buyerId, now);
    if db' != db {
      var lid := ToNumber(listingId).value;
      var buyer := ChatBuyer(buyerId).value;
      assert GetChat(db, lid, buyer).None?;
      assert db'.chats == db.chats + [reply.body];
      forall i, j | 0 <= i < j < |db'.chats|
        ensures !(db'.chats[i].listingId == db'.chats[j].listingId && db'.chats[i].buyerId == db'.chats[j].buyerId)
      {
        if j == |db.chats| {
          assert db'.chats[i] == db.chats[i];
          assert !(db.chats[i].listingId == lid && db.chats[i].buyerId == buyer);
        } else {
          assert db'.chats[i] == db.chats[i] && db'.chats[j] == db.chats[j];
        }
      }
    }
  }

  /** Repeating a successful chat request returns the same chat and writes nothing. */
  lemma CreateChatIdempotent(db: Db, listingId: JsValue, buyerId: JsValue, now: Timestamp, later: Timestamp)
    requires Truthy(listingId) && Storable(ChatBuyer(buyerId)) && Storable(ToNumber(listingId))
    requires GetListing(db, ToNumber(listingId).value).Some?
    ensures var (db1, reply1) := CreateChatRoute(db, listingId, buyerId, now);
      CreateChatRoute(db1, listingId, buyerId, later) == (db1, reply1)
  {
    var (db1, reply1) := CreateChatRoute(db, listingId, buyerId, now);
    var lid := ToNumber(listingId).value;
    var buyer := ChatBuyer(buyerId).value;
    assert GetListing(db1, lid) == GetListing(db, lid);
    assert GetChat(db1, lid, buyer) == Some(reply1.body);
  }

  // --------------------------------------------------------- messages

  /** `POST /api/chats/:id/messages` with body `{ content, senderId }`;
      `chatId` is `Number` of the path segment, `None` when NaN. A chat or
      sender id the database cannot store makes the insert throw, and the
      handler's `catch` turns that into a 500. */
  function SendMessageRoute(db: Db, chatId: Option<int>, content: Option<string>, senderId: JsValue, now: Timestamp)
    : (res: (Db, Reply<Message>))
    ensures (content.None? || content.value == "" || !Truthy(senderId)) ==>
      res == (db, Fail(400, "content and senderId required"))
    ensures content.Some? && content.value != "" && Truthy(senderId) && ToNumber(senderId).None? ==>
      res == (db, Fail(400, "senderId must be a valid number"))
    ensures (content.Some? && content.value != "" && Truthy(senderId) && ToNumber(senderId).Some?
             && !(Storable(chatId) && Storable(ToNumber(senderId)))) ==>
      res == (db, Fail(500, "Error sending message"))
    ensures res.1.Fail? ==> res.0 == db
    ensures res.1.Reply? <==>
      content.Some? && content.value != "" && Truthy(senderId) && Storable(ToNumber(senderId)) && Storable(chatId)
    ensures res.1.Reply? ==>
      && res.1.code == 201
      && res.1.body.chatId == chatId.value && res.1.body.senderId == ToNumber(senderId).value
      && res.1.body.content == content.value
      && res.1.body.id == |db.messages| + 1
      && res.0 == db.(messages := db.messages + [res.1.body])
    ensures SerialIds(db) ==> SerialIds(res.0)
  {
    if content.None? || content.value == "" || !Truthy(senderId) then
      (db, Fail(400, "content and senderId required"))
    else
      match ToNumber(senderId)
      case None => (db, Fail(400, "senderId must be a valid number"))
      case Some(sender) =>
        if !Storable(chatId) || !IsInt4(sender) then (db, Fail(500, "Error sending message"))
        else
          var (db', m) := CreateMessage(db, InsertMessage(chatId.value, sender, content.value), now);
          (db', Reply(201, m))
  }

  // ---------------------------------------------------------- rentals

  /** `GET /api/rentals/:chatId`: the newest record of the chat, or null. */
  function GetRentalRoute(db: Db, chatId: int): (r: Option<RentalReturn>)
    ensures r.None? <==> forall i :: 0 <= i < |db.rentals| ==> db.rentals[i].chatId != chatId
    ensures r.Some? ==> IsLatestFor(db.rentals, chatId, r.value)
  {
    GetRentalReturn(db, chatId)
  }

  /** `Math.floor(1000 + Math.random() * 9000)`: the random factor scaled to 0..8999. */
  type Draw = k: nat | k < 9000

  /** Four decimal digits with no leading zero: the numerals of 1000..9999. */
  predicate IsFourDigitOtp(s: string) {
    |s| == 4 && AllDigits(s) && s[0] != '0'
  }

  /** The OTP text for a draw. */
  function OtpFromDraw(k: Draw): (s: string)
    ensures IsFourDigitOtp(s)
    ensures ParseDigits(s) == 1000 + k
  {
    FourDigitNumeral(1000 + k);
    ParseNatToString(1000 + k);
    NatToString(1000 + k)
  }

  /** The insert `POST /api/rentals` hands to the store. */
  function NewRentalInsert(chatId: int, listingId: int, returnDate: Timestamp, handover: Draw, back: Draw)
    : InsertRentalReturn
  {
    BareRentalInsert(chatId, listingId, returnDate).(
      handoverOtp := Some(OtpFromDraw(handover)),
      returnOtp := Some(OtpFromDraw(back)),
      status := Some(Pending))
  }

  /** `POST /api/rentals` with body `{ chatId, listingId, returnDate }`, given
      as integers: store a pending record with two fresh four-digit OTPs and
      reply 201. */
  function CreateRentalRoute(db: Db, chatId: int, listingId: int, returnDate: Timestamp,
                             handover: Draw, back: Draw, now: Timestamp): (res: (Db, Reply<RentalReturn>))
    ensures res.1.Reply? && res.1.code == 201
    ensures var r := res.1.body;
      && res.0 == db.(rentals := db.rentals + [r])
      && r.id == |db.rentals| + 1 && r.createdAt == now
      && r.chatId == chatId && r.listingId == listingId && r.returnDate == returnDate
      && r.status == Pending
      && r.handoverOtp.Some? && IsFourDigitOtp(r.handoverOtp.value)
      && r.returnOtp.Some? && IsFourDigitOtp(r.returnOtp.value)
      && ParseDigits(r.handoverOtp.value) == 1000 + handover
      && ParseDigits(r.returnOtp.value) == 1000 + back
      && !r.buyerStarted && !r.sellerStarted && !r.buyerConfirmed && !r.sellerConfirmed
      && !r.buyerAgreedDate && !r.sellerAgreedDate
      && !r.handoverOtpVerified && !r.returnOtpVerified && !r.isLate && r.penalty == 0
    ensures SerialIds(db) ==> SerialIds(res.0)
  {
    var (db', r) := CreateRentalReturn(db, NewRentalInsert(chatId, listingId, returnDate, handover, back), now);
    (db', Reply(201, r))
  }

  /** A record created later than every earlier record of its chat is the one
      `GET /api/rentals/:chatId` returns next. */
  lemma NewRentalIsLatest(db: Db, chatId: int, listingId: int, returnDate: Timestamp,
                          handover: Draw, back: Draw, now: Timestamp)
    requires forall i :: 0 <= i < |db.rentals| && db.rentals[i].chatId == chatId ==> db.rentals[i].createdAt < now
    ensures var (db', reply) := CreateRentalRoute(db, chatId, listingId, returnDate, handover, back, now);
      GetRentalRoute(db', chatId) == Some(reply.body)
  {
    var (db', reply) := CreateRentalRoute(db, chatId, listingId, returnDate, handover, back, now);
    var got := GetRentalRoute(db', chatId);
    assert db'.rentals[|db.rentals|] == reply.body;
    assert got.Some?;
    var k :| 0 <= k < |db'.rentals| && db'.rentals[k] == got.value;
    assert forall j :: 0 <= j < |db.rentals| ==> db'.rentals[j] == db.rentals[j];
    assert now <= got.value.createdAt;
    assert k == |db.rentals|;
  }

  /** The body of `PATCH /api/rentals/:id/confirm`; `otp` is whatever JSON
      value the client sent. */
  datatype ConfirmBody = ConfirmBody(confirmedBy: string, action: string, date: Option<Timestamp>, otp: JsValue)

  /** The OTP argument as the store's strict comparisons see it. Only a string
      can be `===` to a stored OTP text; any other value, a JSON number such as
      4821 included, either is falsy or matches neither code, which is the
      store's behaviour for an absent OTP. */
  function OtpText(otp: JsValue): (t: Option<string>)
    ensures t.Some? <==> otp.Str?
    ensures t.Some? ==> t.value == otp.s
  {
    match otp
    case Str(s) => Some(s)
    case _ => None
  }

  /** `PATCH /api/rentals/:id/confirm`: the body's fields go to the store
      unchanged and unvalidated; the store's "Rental not found" error is not
      caught and propagates out of the handler. */
  function ConfirmRoute(db: Db, id: int, body: ConfirmBody): (res: Result<(Db, RentalReturn), StorageError>)
    ensures res == ConfirmRentalReturn(db, id, body.confirmedBy, body.action, body.date, OtpText(body.otp))
    ensures res.Failure? <==> forall j :: 0 <= j < |db.rentals| ==> db.rentals[j].id != id
  {
    ConfirmRentalReturn(db, id, body.confirmedBy, body.action, body.date, OtpText(body.otp))
  }

  /** An OTP sent as a JSON number (or any other non-string) never verifies:
      the record comes back unchanged and the store is untouched. */
  lemma NonStringOtpIsNoOp(db: Db, id: int, body: ConfirmBody)
    requires body.action == "verify_otp" && !body.otp.Str?
    ensures var res := ConfirmRoute(db, id, body);
      res.Success? ==> res.value.0 == db && res.value.1 in db.rentals && res.value.1.id == id
  {
    var res := ConfirmRoute(db, id, body);
    if res.Success? {
      var i := RentalIndex(db.rentals, id).value;
      assert ConfirmUpdates(db.rentals[i], body.confirmedBy, body.action, body.date, None) == NoChange;
      assert res.value.1 == db.rentals[i];
      assert db.rentals[i := db.rentals[i]] == db.rentals;
    }
  }

  // --------------------------------------------------------- purchase

  /** The order record `POST /api/purchase` answers with; it is not stored. */
  datatype Order = Order(
    listingId: int,
    buyerId: int,
    sellerId: int,
    orderType: JsValue,
    quantity: JsValue,
    totalPrice: Option<int>,
    status: string,
    createdAt: Timestamp)

  datatype Receipt = Receipt(message: string, order: Order)

  /** `quantity || 1`. */
  function EffectiveQuantity(quantity: JsValue): (q: JsValue)
    ensures Truthy(q)
    ensures Truthy(quantity) ==> q == quantity
    ensures !Truthy(quantity) ==> q == Num(1)
  {
    if Truthy(quantity) then quantity else Num(1)
  }

  /** `listing.price * (quantity || 1)`; `None` is NaN. */
  function TotalPrice(price: int, quantity: JsValue): (t: Option<int>)
    ensures !Truthy(quantity) ==> t == Some(price)
    ensures Truthy(quantity) && ToNumber(quantity).Some? ==> t == Some(price * ToNumber(quantity).value)
    ensures quantity.Num? && quantity.n != 0 ==> t == Some(price * quantity.n)
    ensures ToNumber(EffectiveQuantity(quantity)).None? <==> t.None?
  {
    match ToNumber(EffectiveQuantity(quantity))
    case None => None
    case Some(n) => Some(price * n)
  }

  /** `POST /api/purchase` with body `{ listingId, type, quantity }`. The store
      is only read. */
  function PurchaseRoute(db: Db, listingId: JsValue, orderType: JsValue, quantity: JsValue, now: Timestamp)
    : (r: Reply<Receipt>)
    ensures !Truthy(listingId) || !Truthy(orderType) ==> r == Fail(400, "listingId and type required")
    ensures Truthy(listingId) && Truthy(orderType) && !Storable(ToNumber(listingId)) ==>
      r == Fail(500, "Error creating order")
    ensures (Truthy(listingId) && Truthy(orderType) && Storable(ToNumber(listingId))
             && GetListing(db, ToNumber(listingId).value).None?) ==>
      r == Fail(404, "Listing not found")
    ensures r.Reply? <==>
      Truthy(listingId) && Truthy(orderType) && Storable(ToNumber(listingId))
      && GetListing(db, ToNumber(listingId).value).Some?
    ensures r.Reply? ==>
      && Truthy(listingId) && Truthy(orderType) && Storable(ToNumber(listingId))
      && GetListing(db, ToNumber(listingId).value).Some?
      && var listing := GetListing(db, ToNumber(listingId).value).value;
      && r.code == 201 && r.body.message == "Order created successfully"
      && r.body.order.listingId == ToNumber(listingId).value
      && r.body.order.buyerId == DefaultUserId && r.body.order.sellerId == listing.sellerId
      && r.body.order.orderType == orderType
      && r.body.order.quantity == EffectiveQuantity(quantity)
      && r.body.order.totalPrice == TotalPrice(listing.price, quantity)
      && r.body.order.status == "pending" && r.body.order.createdAt == now
  {
    if !Truthy(listingId) || !Truthy(orderType) then Fail(400, "listingId and type required")
    else
      if !Storable(ToNumber(listingId)) then Fail(500, "Error creating order")
      else
        var lid := ToNumber(listingId).value;
        match GetListing(db, lid)
        case None => Fail(404, "Listing not found")
        case Some(listing) =>
          var q := EffectiveQuantity(quantity);
          Reply(201, Receipt("Order created successfully",
            Order(lid, DefaultUserId, listing.sellerId, orderType, q, TotalPrice(listing.price, quantity), "pending", now)))
  }

  /** Nothing bounds the quantity: a negative quantity is accepted and gives a
      negative total. */
  lemma NegativeQuantityAccepted(db: Db, lid: int, n: int, now: Timestamp)
    requires lid != 0 && IsInt4(lid) && GetListing(db, lid).Some? && GetListing(db, lid).value.price > 0 && n < 0
    ensures var r := PurchaseRoute(db, Num(lid), Str("buy"), Num(n), now);
      r.Reply? && r.body.order.totalPrice.Some? && r.body.order.totalPrice.value < 0
  {
    var price := GetListing(db, lid).value.price;
    assert price * n < 0;
  }
}

=== FILE: Schema.dfy ===
/** Rows of the marketplace's tables and the column defaults that decide what
    a freshly inserted row holds. Media columns of listings (image, PDF and
    video URLs) and the users table are not part of this model. */
module Schema {
  import opened Common

  /** Database timestamps, as integers. */
  type Timestamp = int

  /** The range of a Postgres `integer` column; the database rejects any
      other value for such a column, in a query as in an insert. */
  const Int4Min: int := -0x8000_0000
  const Int4Max: int := 0x7fff_ffff

  predicate IsInt4(n: int) {
    Int4Min <= n <= Int4Max
  }

  /** A listing; `listingType` is the free-text `type` column ('sell' or 'rent'
      by convention) and `status` the free-text status column. */
  datatype Listing = Listing(
    id: nat,
    sellerId: int,
    title: string,
    description: string,
    price: int,
    category: string,
    listingType: string,
    status: string,
    createdAt: Timestamp)

  /** What a caller may supply for a new listing: `id` and `createdAt` are
      omitted, `status` may be left out. */
  datatype InsertListing = InsertListing(
    sellerId: int,
    title: string,
    description: string,
    price: int,
    category: string,
    listingType: string,
    status: Option<string>)

  const DefaultListingStatus: string := "available"

  /** The row the store holds after inserting `ins` as row `id` at time `now`. */
  function ListingRow(ins: InsertListing, id: nat, now: Timestamp): (l: Listing)
    ensures l.id == id && l.createdAt == now
    ensures ins.status.None? ==> l.status == DefaultListingStatus
    ensures ins.status.Some? ==> l.status == ins.status.value
    ensures l.sellerId == ins.sellerId && l.title == ins.title && l.description == ins.description
    ensures l.price == ins.price && l.category == ins.category && l.listingType == ins.listingType
  {
    Listing(id, ins.sellerId, ins.title, ins.description, ins.price, ins.category,
            ins.listingType, ins.status.GetOr(DefaultListingStatus), now)
  }

  /** A chat binds one listing to one buyer and the listing's seller. */
  datatype Chat = Chat(id: nat, listingId: int, buyerId: int, sellerId: int, createdAt: Timestamp)

  datatype Message = Message(id: nat, chatId: int, senderId: int, content: string, createdAt: Timestamp)

  /** What a caller supplies for a new message (`id` and `createdAt` omitted). */
  datatype InsertMessage = InsertMessage(chatId: int, senderId: int, content: string)

  /** The documented values of a rental's `status` column. */
  datatype RentalStatus = Pending | Active | Completed | Late {
    function Text(): string {
      match this
      case Pending => "pending"
      case Active => "active"
      case Completed => "completed"
      case Late => "late"
    }
  }

  /** One rental-return record. */
  datatype RentalReturn = RentalReturn(
    id: nat,
    chatId: int,
    listingId: int,
    startDate: Timestamp,
    returnDate: Timestamp,
    buyerConfirmed: bool,
    sellerConfirmed: bool,
    buyerStarted: bool,
    sellerStarted: bool,
    buyerAgreedDate: bool,
    sellerAgreedDate: bool,
    handoverOtp: Option<string>,
    returnOtp: Option<string>,
    handoverOtpVerified: bool,
    returnOtpVerified: bool,
    isLate: bool,
    penalty: int,
    status: RentalStatus,
    createdAt: Timestamp)

  /** What a caller may supply for a new rental record: `chatId`, `listingId`
      and `returnDate` are required, `id` and `createdAt` are omitted, every
      other column is optional. */
  datatype InsertRentalReturn = InsertRentalReturn(
    chatId: int,
    listingId: int,
    startDate: Option<Timestamp>,
    returnDate: Timestamp,
    buyerConfirmed: Option<bool>,
    sellerConfirmed: Option<bool>,
    buyerStarted: Option<bool>,
    sellerStarted: Option<bool>,
    buyerAgreedDate: Option<bool>,
    sellerAgreedDate: Option<bool>,
    handoverOtp: Option<string>,
    returnOtp: Option<string>,
    handoverOtpVerified: Option<bool>,
    returnOtpVerified: Option<bool>,
    isLate: Option<bool>,
    penalty: Option<int>,
    status: Option<RentalStatus>)

  /** An insert that supplies only the required columns. */
  function BareRentalInsert(chatId: int, listingId: int, returnDate: Timestamp): InsertRentalReturn {
    InsertRentalReturn(chatId, listingId, None, returnDate, None, None, None, None, None, None,
                       None, None, None, None, None, None, None)
  }

  /** The row the store holds after inserting `ins` as row `id` at time `now`:
      supplied columns are kept, omitted ones take their defaults. */
  function RentalRow(ins: InsertRentalReturn, id: nat, now: Timestamp): (r: RentalReturn)
    ensures r.id == id && r.createdAt == now
    ensures r.chatId == ins.chatId && r.listingId == ins.listingId && r.returnDate == ins.returnDate
    ensures r.handoverOtp == ins.handoverOtp && r.returnOtp == ins.returnOtp
    ensures ins.startDate.None? ==> r.startDate == now
    ensures ins.startDate.Some? ==> r.startDate == ins.startDate.value
    ensures ins.status.None? ==> r.status == Pending
    ensures ins.status.Some? ==> r.status == ins.status.value
    ensures ins.penalty.None? ==> r.penalty == 0
    ensures ins.penalty.Some? ==> r.penalty == ins.penalty.value
    ensures ins.isLate.None? ==> !r.isLate
    ensures ins.isLate.Some? ==> r.isLate == ins.isLate.value
    ensures ins.buyerConfirmed.None? ==> !r.buyerConfirmed
    ensures ins.buyerConfirmed.Some? ==> r.buyerConfirmed == ins.buyerConfirmed.value
    ensures ins.sellerConfirmed.None? ==> !r.sellerConfirmed
    ensures ins.sellerConfirmed.Some? ==> r.sellerConfirmed == ins.sellerConfirmed.value
    ensures ins.buyerStarted.None? ==> !r.buyerStarted
    ensures ins.buyerStarted.Some? ==> r.buyerStarted == ins.buyerStarted.value
    ensures ins.sellerStarted.None? ==> !r.sellerStarted
    ensures ins.sellerStarted.Some? ==> r.sellerStarted == ins.sellerStarted.value
    ensures ins.buyerAgreedDate.None? ==> !r.buyerAgreedDate
    ensures ins.buyerAgreedDate.Some? ==> r.buyerAgreedDate == ins.buyerAgreedDate.value
    ensures ins.sellerAgreedDate.None? ==> !r.sellerAgreedDate
    ensures ins.sellerAgreedDate.Some? ==> r.sellerAgreedDate == ins.sellerAgreedDate.value
    ensures ins.handoverOtpVerified.None? ==> !r.handoverOtpVerified
    ensures ins.handoverOtpVerified.Some? ==> r.handoverOtpVerified == ins.handoverOtpVerified.value
    ensures ins.returnOtpVerified.None? ==> !r.returnOtpVerified
    ensures ins.returnOtpVerified.Some? ==> r.returnOtpVerified == ins.returnOtpVerified.value
  {
    RentalReturn(
      id, ins.chatId, ins.listingId,
      ins.startDate.GetOr(now), ins.returnDate,
      ins.buyerConfirmed.GetOr(false), ins.sellerConfirmed.GetOr(false),
      ins.buyerStarted.GetOr(false), ins.sellerStarted.GetOr(false),
      ins.buyerAgreedDate.GetOr(false), ins.sellerAgreedDate.GetOr(false),
      ins.handoverOtp, ins.returnOtp,
      ins.handoverOtpVerified.GetOr(false), ins.returnOtpVerified.GetOr(false),
      ins.isLate.GetOr(false), ins.penalty.GetOr(0), ins.status.GetOr(Pending),
      now)
  }

  /** A rental inserted with only its required columns starts with every flag
      false, no penalty, no OTPs, status pending, and its start date at the
      insertion time. */
  lemma BareRentalDefaults(chatId: int, listingId: int, returnDate: Timestamp, id: nat, now: Timestamp)
    ensures var r := RentalRow(BareRentalInsert(chatId, listingId, returnDate), id, now);
      && !r.buyerStarted && !r.sellerStarted && !r.buyerConfirmed && !r.sellerConfirmed
      && !r.buyerAgreedDate && !r.sellerAgreedDate
      && !r.handoverOtpVerified && !r.returnOtpVerified && !r.isLate
      && r.penalty == 0 && r.status == Pending && r.status.Text() == "pending"
      && r.handoverOtp.None? && r.returnOtp.None? && r.startDate == now
  {
  }
}

=== FILE: Storage.dfy ===
/** The store behind the HTTP API: four tables held as sequences in insertion
    order, with serial ids, and the queries and updates `DatabaseStorage`
    performs on them. A keyed lookup returns the first matching row. */
module Storage {
  import opened Common
  import opened Schema
  import NewestFirst

  datatype Db = Db(
    listings: seq<Listing>,
    chats: seq<Chat>,
    messages: seq<Message>,
    rentals: seq<RentalReturn>)

  const EmptyDb: Db := Db([], [], [], [])

  /** Serial primary keys: the row at position `i` of every table has id `i + 1`. */
  predicate SerialIds(db: Db) {
    && (forall i :: 0 <= i < |db.listings| ==> db.listings[i].id == i + 1)
    && (forall i :: 0 <= i < |db.chats| ==> db.chats[i].id == i + 1)
    && (forall i :: 0 <= i < |db.messages| ==> db.messages[i].id == i + 1)
    && (forall i :: 0 <= i < |db.rentals| ==> db.rentals[i].id == i + 1)
  }

  // ---------------------------------------------------------------- listings

  /** `filters?.category` is truthy: present and non-empty. */
  predicate CategoryGiven(category: Option<string>) {
    category.Some? && category.value != ""
  }

  /** `getListings`: the listings of the given category (all of them when no
      category is given), newest first. The `search` filter is accepted and ignored. */
  function GetListings(db: Db, category: Option<string>, search: Option<string>): (r: seq<Listing>)
    ensures NewestFirst.Sorted(r)
    ensures CategoryGiven(category) ==>
      multiset(r) == multiset(Filter(db.listings, (l: Listing) => l.category == category.value))
    ensures !CategoryGiven(category) ==> multiset(r) == multiset(db.listings)
    ensures forall l :: l in r <==> l in db.listings && (CategoryGiven(category) ==> l.category == category.value)
  {
    var rows := if CategoryGiven(category)
                then Filter(db.listings, (l: Listing) => l.category == category.value)
                else db.listings;
    var r := NewestFirst.Sort(rows);
    assert forall l :: l in r <==> l in rows by {
      forall l
        ensures l in r <==> l in rows
      {
        assert l in r <==> l in multiset(r);
        assert l in rows <==> l in multiset(rows);
      }
    }
    r
  }

  /** `getListing(id)`. */
  function GetListing(db: Db, id: int): (r: Option<Listing>)
    ensures r.Some? ==> r.value in db.listings && r.value.id == id
    ensures r.None? <==> forall j :: 0 <= j < |db.listings| ==> db.listings[j].id != id
  {
    FirstWhere(db.listings, (l: Listing) => l.id == id)
  }

  /** `createListing`: append a row built from `ins` with the next serial id. */
  function CreateListing(db: Db, ins: InsertListing, now: Timestamp): (res: (Db, Listing))
    ensures res.0 == db.(listings := db.listings + [res.1])
    ensures res.1 == ListingRow(ins, |db.listings| + 1, now)
    ensures SerialIds(db) ==> SerialIds(res.0)
  {
    var l := ListingRow(ins, |db.listings| + 1, now);
    (db.(listings := db.listings + [l]), l)
  }

  /** `updateListing(id, { status })`: set the status of the listing with this
      id; `None` when there is no such listing. */
  function UpdateListingStatus(db: Db, id: int, status: string): (res: (Db, Option<Listing>))
    ensures GetListing(db, id).None? ==> res == (db, None)
    ensures GetListing(db, id).Some? ==>
      && res.1 == Some(GetListing(db, id).value.(status := status))
      && res.0.chats == db.chats && res.0.messages == db.messages && res.0.rentals == db.rentals
      && |res.0.listings| == |db.listings|
      && forall j :: 0 <= j < |db.listings| && db.listings[j].id != id ==> res.0.listings[j] == db.listings[j]
    ensures GetListing(db, id).Some? ==> GetListing(res.0, id) == res.1
    ensures SerialIds(db) ==> SerialIds(res.0)
  {
    match FirstIndex(db.listings, (l: Listing) => l.id == id)
    case None => (db, None)
    case Some(i) =>
      var l := db.listings[i].(status := status);
      var db' := db.(listings := db.listings[i := l]);
      FirstIndexAt(db'.listings, (x: Listing) => x.id == id, i);
      (db', Some(l))
  }

  // ------------------------------------------------------------------- chats

  /** The user takes part in the chat as buyer or seller. */
  predicate Involves(c: Chat, userId: int) {
    c.buyerId == userId || c.sellerId == userId
  }

  /** The id of the other party as the store computes it: the seller when the
      user is the buyer, the buyer otherwise. */
  function Counterpart(c: Chat, userId: int): (other: int)
    ensures other == c.buyerId || other == c.sellerId
    ensures Involves(c, userId) && c.buyerId != c.sellerId ==> other != userId
    ensures c.sellerId == userId ==> other == c.buyerId
    ensures !Involves(c, userId) ==> other == c.buyerId
  {
    if c.buyerId == userId then c.sellerId else c.buyerId
  }

  /** A chat as `getChats` returns it: the row, its listing, and the other party. */
  datatype ChatView = ChatView(chat: Chat, listing: Option<Listing>, otherUserId: int)

  function ChatsOf(vs: seq<ChatView>): (cs: seq<Chat>)
    ensures |cs| == |vs| && forall i :: 0 <= i < |vs| ==> cs[i] == vs[i].chat
  {
    seq(|vs|, i requires 0 <= i < |vs| => vs[i].chat)
  }

  /** `getChats(userId)`: every chat the user takes part in, in table order,
      each with its listing and the id of the other party. */
  function GetChats(db: Db, userId: int): (r: seq<ChatView>)
    ensures ChatsOf(r) == Filter(db.chats, (c: Chat) => Involves(c, userId))
    ensures forall v :: v in r ==> v.chat in db.chats && Involves(v.chat, userId)
    ensures forall c :: c in db.chats && Involves(c, userId) ==> c in ChatsOf(r)
    ensures forall v :: v in r ==> v.listing == GetListing(db, v.chat.listingId)
    ensures forall v :: v in r && v.chat.buyerId == userId ==> v.otherUserId == v.chat.sellerId
    ensures forall v :: v in r && v.chat.buyerId != userId ==>
      v.chat.sellerId == userId && v.otherUserId == v.chat.buyerId
  {
    var mine := Filter(db.chats, (c: Chat) => Involves(c, userId));
    var r := seq(|mine|, i requires 0 <= i < |mine| =>
      ChatView(mine[i], GetListing(db, mine[i].listingId), Counterpart(mine[i], userId)));
    assert ChatsOf(r) == mine;
    assert forall i :: 0 <= i < |mine| ==> mine[i] in mine;
    assert forall i :: 0 <= i < |r| ==> r[i].chat == mine[i] && Involves(mine[i], userId);
    assert forall i :: 0 <= i < |r| ==>
      r[i].otherUserId == (if mine[i].buyerId == userId then mine[i].sellerId else mine[i].buyerId);
    r
  }

  /** `getChat(listingId, buyerId)`: the chat for this listing and buyer, if any. */
  function GetChat(db: Db, listingId: int, buyerId: int): (r: Option<Chat>)
    ensures r.Some? ==> r.value in db.chats && r.value.listingId == listingId && r.value.buyerId == buyerId
    ensures r.None? <==> forall j :: 0 <= j < |db.chats| ==>
      !(db.chats[j].listingId == listingId && db.chats[j].buyerId == buyerId)
  {
    FirstWhere(db.chats, (c: Chat) => c.listingId == listingId && c.buyerId == buyerId)
  }

  /** `createChat`: append a chat with the next serial id. */
  function CreateChat(db: Db, listingId: int, buyerId: int, sellerId: int, now: Timestamp): (res: (Db, Chat))
    ensures res.1 == Chat(|db.chats| + 1, listingId, buyerId, sellerId, now)
    ensures res.0 == db.(chats := db.chats + [res.1])
    ensures SerialIds(db) ==> SerialIds(res.0)
  {
    var c := Chat(|db.chats| + 1, listingId, buyerId, sellerId, now);
    (db.(chats := db.chats + [c]), c)
  }

  // ---------------------------------------------------------------- messages

  /** `createMessage`: append a message with the next serial id. */
  function CreateMessage(db: Db, ins: InsertMessage, now: Timestamp): (res: (Db, Message))
    ensures res.1 == Message(|db.messages| + 1, ins.chatId, ins.senderId, ins.content, now)
    ensures res.0 == db.(messages := db.messages + [res.1])
    ensures SerialIds(db) ==> SerialIds(res.0)
  {
    var m := Message(|db.messages| + 1, ins.chatId, ins.senderId, ins.content, now);
    (db.(messages := db.messages + [m]), m)
  }

  /** The messages `markMessagesAsRead(chatId, userId)` addresses: nothing when
      the chat does not exist, otherwise the chat's messages sent by the other
      party. */
  function MessagesToMarkRead(db: Db, chatId: int, userId: int): (r: seq<Message>)
    ensures FirstWhere(db.chats, (c: Chat) => c.id == chatId).None? ==> r == []
    ensures FirstWhere(db.chats, (c: Chat) => c.id == chatId).Some? ==>
      var other := Counterpart(FirstWhere(db.chats, (c: Chat) => c.id == chatId).value, userId);
      forall m :: m in r <==> m in db.messages && m.chatId == chatId && m.senderId == other
    ensures IsSubseq(r, db.messages)
  {
    match FirstWhere(db.chats, (c: Chat) => c.id == chatId)
    case None => []
    case Some(chat) =>
      var other := Counterpart(chat, userId);
      FilterIsSubseq(db.messages, (m: Message) => m.chatId == chatId && m.senderId == other);
      Filter(db.messages, (m: Message) => m.chatId == chatId && m.senderId == other)
  }

  // ----------------------------------------------------------------- rentals

  /** `x` is a record of `chatId` with the greatest `createdAt` among that chat's records. */
  predicate IsLatestFor(rs: seq<RentalReturn>, chatId: int, x: RentalReturn) {
    && x in rs
    && x.chatId == chatId
    && forall i :: 0 <= i < |rs| && rs[i].chatId == chatId ==> rs[i].createdAt <= x.createdAt
  }

  /** The newest record of `chatId` (on equal `createdAt`, the earliest inserted). */
  function LatestRental(rs: seq<RentalReturn>, chatId: int): (r: Option<RentalReturn>)
    ensures r.None? <==> forall i :: 0 <= i < |rs| ==> rs[i].chatId != chatId
    ensures r.Some? ==> IsLatestFor(rs, chatId, r.value)
    decreases |rs|
  {
    if |rs| == 0 then None
    else
      var rest := LatestRental(rs[1..], chatId);
      assert forall i :: 1 <= i < |rs| ==> rs[i] == rs[1..][i - 1];
      if rs[0].chatId == chatId && (rest.None? || rs[0].createdAt >= rest.value.createdAt)
      then Some(rs[0])
      else rest
  }

  /** `getRentalReturn(chatId)`. */
  function GetRentalReturn(db: Db, chatId: int): (r: Option<RentalReturn>)
    ensures r.None? <==> forall i :: 0 <= i < |db.rentals| ==> db.rentals[i].chatId != chatId
    ensures r.Some? ==> IsLatestFor(db.rentals, chatId, r.value)
  {
    LatestRental(db.rentals, chatId)
  }

  /** `createRentalReturn`: append the row built from `ins` with the next serial id. */
  function CreateRentalReturn(db: Db, ins: InsertRentalReturn, now: Timestamp): (res: (Db, RentalReturn))
    ensures res.1 == RentalRow(ins, |db.rentals| + 1, now)
    ensures res.0 == db.(rentals := db.rentals + [res.1])
    ensures SerialIds(db) ==> SerialIds(res.0)
  {
    var r := RentalRow(ins, |db.rentals| + 1, now);
    (db.(rentals := db.rentals + [r]), r)
  }

  /** The partial record `confirmRentalReturn` hands to the update; an absent
      field is left as it is. */
  datatype RentalPatch = RentalPatch(
    returnDate: Option<Timestamp>,
    buyerConfirmed: Option<bool>,
    sellerConfirmed: Option<bool>,
    buyerStarted: Option<bool>,
    sellerStarted: Option<bool>,
    buyerAgreedDate: Option<bool>,
    sellerAgreedDate: Option<bool>,
    handoverOtpVerified: Option<bool>,
    returnOtpVerified: Option<bool>,
    status: Option<RentalStatus>)

  const NoChange: RentalPatch := RentalPatch(None, None, None, None, None, None, None, None, None, None)

  /** The update set built for one confirmation. `date` is `None` for any falsy
      date argument; `otp` is truthy when present and non-empty. */
  function ConfirmUpdates(r: RentalReturn, confirmedBy: string, action: string,
                          date: Option<Timestamp>, otp: Option<string>): (p: RentalPatch)
    ensures p.buyerConfirmed in {None, Some(true)} && p.sellerConfirmed in {None, Some(true)}
    ensures p.buyerStarted in {None, Some(true)} && p.sellerStarted in {None, Some(true)}
    ensures p.buyerAgreedDate in {None, Some(true)} && p.sellerAgreedDate in {None, Some(true)}
    ensures p.handoverOtpVerified in {None, Some(true)} && p.returnOtpVerified in {None, Some(true)}
    ensures confirmedBy == "buyer" ==> p.sellerStarted.None? && p.sellerConfirmed.None? && p.sellerAgreedDate.None?
    ensures confirmedBy != "buyer" ==> p.buyerStarted.None? && p.buyerConfirmed.None? && p.buyerAgreedDate.None?
    ensures p.returnDate.Some? ==> action == "date" && p.returnDate == date
    ensures p.status.Some? ==> action == "verify_otp" && OtpGiven(otp)
    ensures p.status == Some(Active) <==> p.handoverOtpVerified.Some?
    ensures p.status == Some(Completed) <==> p.returnOtpVerified.Some?
    ensures p.status != Some(Pending) && p.status != Some(Late)
  {
    if action == "start" then
      if confirmedBy == "buyer" then NoChange.(buyerStarted := Some(true))
      else NoChange.(sellerStarted := Some(true))
    else if action == "end" then
      if confirmedBy == "buyer" then NoChange.(buyerConfirmed := Some(true))
      else NoChange.(sellerConfirmed := Some(true))
    else if action == "date" && date.Some? then
      if confirmedBy == "buyer" then NoChange.(returnDate := date, buyerAgreedDate := Some(true))
      else NoChange.(returnDate := date, sellerAgreedDate := Some(true))
    else if action == "verify_otp" && otp.Some? && otp.value != "" then
      if Some(otp.value) == r.handoverOtp then
        NoChange.(handoverOtpVerified := Some(true), status := Some(Active))
      else if Some(otp.value) == r.returnOtp then
        NoChange.(returnOtpVerified := Some(true), status := Some(Completed))
      else NoChange
    else NoChange
  }

  /** The row after `UPDATE ... SET p`. */
  function ApplyPatch(r: RentalReturn, p: RentalPatch): RentalReturn {
    r.(returnDate := p.returnDate.GetOr(r.returnDate),
       buyerConfirmed := p.buyerConfirmed.GetOr(r.buyerConfirmed),
       sellerConfirmed := p.sellerConfirmed.GetOr(r.sellerConfirmed),
       buyerStarted := p.buyerStarted.GetOr(r.buyerStarted),
       sellerStarted := p.sellerStarted.GetOr(r.sellerStarted),
       buyerAgreedDate := p.buyerAgreedDate.GetOr(r.buyerAgreedDate),
       sellerAgreedDate := p.sellerAgreedDate.GetOr(r.sellerAgreedDate),
       handoverOtpVerified := p.handoverOtpVerified.GetOr(r.handoverOtpVerified),
       returnOtpVerified := p.returnOtpVerified.GetOr(r.returnOtpVerified),
       status := p.status.GetOr(r.status))
  }

  /** No boolean flag goes from true to false. */
  predicate FlagsKept(r: RentalReturn, r': RentalReturn) {
    && (r.buyerConfirmed ==> r'.buyerConfirmed) && (r.sellerConfirmed ==> r'.sellerConfirmed)
    && (r.buyerStarted ==> r'.buyerStarted) && (r.sellerStarted ==> r'.sellerStarted)
    && (r.buyerAgreedDate ==> r'.buyerAgreedDate) && (r.sellerAgreedDate ==> r'.sellerAgreedDate)
    && (r.handoverOtpVerified ==> r'.handoverOtpVerified) && (r.returnOtpVerified ==> r'.returnOtpVerified)
    && (r.isLate ==> r'.isLate)
  }

  /** The columns no confirmation writes. */
  predicate FixedColumnsKept(r: RentalReturn, r': RentalReturn) {
    && r'.id == r.id && r'.chatId == r.chatId && r'.listingId == r.listingId
    && r'.startDate == r.startDate && r'.createdAt == r.createdAt
    && r'.handoverOtp == r.handoverOtp && r'.returnOtp == r.returnOtp
    && r'.isLate == r.isLate && r'.penalty == r.penalty
  }

  /** A non-empty OTP argument. */
  predicate OtpGiven(otp: Option<string>) {
    otp.Some? && otp.value != ""
  }

  /** One confirmation applied to one record. */
  function ConfirmStep(r: RentalReturn, confirmedBy: string, action: string,
                       date: Option<Timestamp>, otp: Option<string>): (r': RentalReturn)
    ensures FixedColumnsKept(r, r')
    ensures FlagsKept(r, r')
  {
    ApplyPatch(r, ConfirmUpdates(r, confirmedBy, action, date, otp))
  }

  /** Raised by the store. */
  datatype StorageError = RentalNotFound {
    function Message(): string {
      "Rental not found"
    }
  }

  /** Position of the rental with this id. */
  function RentalIndex(rs: seq<RentalReturn>, id: int): (r: Option<nat>)
    ensures r.Some? ==> r.value < |rs| && rs[r.value].id == id
    ensures r.None? <==> forall j :: 0 <= j < |rs| ==> rs[j].id != id
  {
    FirstIndex(rs, (x: RentalReturn) => x.id == id)
  }

  /** `confirmRentalReturn(id, confirmedBy, type, date, otp)`: load the record,
      fail with "Rental not found" when there is none, otherwise write the
      update set and return the updated record. */
  function ConfirmRentalReturn(db: Db, id: int, confirmedBy: string, action: string,
                               date: Option<Timestamp>, otp: Option<string>)
    : (res: Result<(Db, RentalReturn), StorageError>)
    ensures res.Failure? <==> forall j :: 0 <= j < |db.rentals| ==> db.rentals[j].id != id
    ensures res.Failure? ==> res.error == RentalNotFound && res.error.Message() == "Rental not found"
    ensures res.Success? ==>
      var (db', r') := res.value;
      && db'.listings == db.listings && db'.chats == db.chats && db'.messages == db.messages
      && |db'.rentals| == |db.rentals|
      && RentalIndex(db.rentals, id).Some?
      && var i := RentalIndex(db.rentals, id).value;
      && r' == ConfirmStep(db.rentals[i], confirmedBy, action, date, otp)
      && db'.rentals[i] == r' && r'.id == id
      && forall j :: 0 <= j < |db.rentals| && j != i ==> db'.rentals[j] == db.rentals[j]
    ensures res.Success? && SerialIds(db) ==> SerialIds(res.value.0)
  {
    match RentalIndex(db.rentals, id)
    case None => Failure(RentalNotFound)
    case Some(i) =>
      var r' := ConfirmStep(db.rentals[i], confirmedBy, action, date, otp);
      Success((db.(rentals := db.rentals[i := r']), r'))
  }
}

=== FILE: Text.dfy ===
/** String operations the source borrows from JavaScript: decimal rendering of
    integers (`String(n)`, `n.toString()`), substring search (`includes`),
    first-occurrence replacement (`replace` with a string pattern), ASCII
    `toLowerCase`, and `trim`. */
module Text {
  import opened Common

  predicate IsDigit(c: char) {
    '0' <= c <= '9'
  }

  predicate AllDigits(s: string) {
    forall i :: 0 <= i < |s| ==> IsDigit(s[i])
  }

  function DigitChar(d: nat): (c: char)
    requires d < 10
    ensures IsDigit(c)
  {
    ('0' as int + d) as char
  }

  function DigitValue(c: char): (d: nat)
    requires IsDigit(c)
    ensures d < 10 && DigitChar(d) == c
  {
    c as int - '0' as int
  }

  /** The shortest decimal numeral for `n`, as JavaScript prints a non-negative integer. */
  function NatToString(n: nat): (s: string)
    ensures 1 <= |s|
    ensures AllDigits(s)
    ensures n > 0 ==> s[0] != '0'
    decreases n
  {
    if n < 10 then [DigitChar(n)]
    else NatToString(n / 10) + [DigitChar(n % 10)]
  }

  /** `String(n)` for an integer `n`. */
  function IntToString(n: int): (s: string)
    ensures n >= 0 ==> s == NatToString(n)
    ensures n < 0 ==> s == "-" + NatToString(-n)
  {
    if n < 0 then "-" + NatToString(-n) else NatToString(n)
  }

  /** The value of a string of decimal digits (the inverse partner of `NatToString`). */
  function ParseDigits(s: string): nat
    requires AllDigits(s)
    decreases |s|
  {
    if |s| == 0 then 0
    else ParseDigits(s[..|s| - 1]) * 10 + DigitValue(s[|s| - 1])
  }

  lemma {:induction false} ParseNatToString(n: nat)
    ensures ParseDigits(NatToString(n)) == n
    decreases n
  {
    var s := NatToString(n);
    if n >= 10 {
      ParseNatToString(n / 10);
      assert s[..|s| - 1] == NatToString(n / 10);
    }
  }

  /** Exactly the integers 1000..9999 print as four characters. */
  lemma FourDigitNumeral(n: nat)
    requires 1000 <= n <= 9999
    ensures |NatToString(n)| == 4
  {
    var q1 := n / 10;
    var q2 := q1 / 10;
    var q3 := q2 / 10;
    assert 1 <= q3 < 10 <= q2 < 100 <= q1 < 1000;
    assert |NatToString(q3)| == 1;
    assert |NatToString(q2)| == |NatToString(q3)| + 1;
    assert |NatToString(q1)| == |NatToString(q2)| + 1;
    assert |NatToString(n)| == |NatToString(q1)| + 1;
  }

  /** `pat` occurs in `s` starting at position `i`. */
  predicate OccursAt(s: string, pat: string, i: nat) {
    i + |pat| <= |s| && s[i..i + |pat|] == pat
  }

  /** The first occurrence of `pat` in `s` at or after `from`. */
  function IndexOfFrom(s: string, pat: string, from: nat): (r: Option<nat>)
    ensures r.Some? ==> from <= r.value && OccursAt(s, pat, r.value)
    ensures r.Some? ==> forall j :: from <= j < r.value ==> !OccursAt(s, pat, j)
    ensures r.None? <==> forall j :: from <= j ==> !OccursAt(s, pat, j)
    decreases |s| - from
  {
    if from + |pat| > |s| then None
    else if OccursAt(s, pat, from) then Some(from)
    else IndexOfFrom(s, pat, from + 1)
  }

  /** `s.indexOf(pat)`, with `None` for -1. */
  function IndexOf(s: string, pat: string): Option<nat> {
    IndexOfFrom(s, pat, 0)
  }

  /** `s.includes(pat)`. */
  predicate Includes(s: string, pat: string) {
    IndexOf(s, pat).Some?
  }

  lemma IncludesMeansOccurs(s: string, pat: string)
    ensures Includes(s, pat) <==> exists i: nat :: OccursAt(s, pat, i)
  {
    if Includes(s, pat) {
      assert OccursAt(s, pat, IndexOf(s, pat).value);
    }
  }

  /** When the first character of `pat` does not appear in `prefix`, the first
      occurrence of `pat` in `prefix + pat + rest` is right after `prefix`. */
  lemma IndexOfAfterPrefix(prefix: string, pat: string, rest: string)
    requires |pat| > 0 && pat[0] !in prefix
    ensures IndexOf(prefix + pat + rest, pat) == Some(|prefix|)
  {
    var s := prefix + pat + rest;
    assert s[|prefix|..|prefix| + |pat|] == pat;
    assert OccursAt(s, pat, |prefix|);
    forall j | 0 <= j < |prefix|
      ensures !OccursAt(s, pat, j)
    {
      assert s[j] == prefix[j] != pat[0];
      if j + |pat| <= |s| {
        assert s[j..j + |pat|][0] == s[j];
      }
    }
  }

  /** `s.replace(pat, rep)` for a string pattern: only the first occurrence is replaced. */
  function ReplaceFirst(s: string, pat: string, rep: string): (r: string)
    ensures IndexOf(s, pat).None? ==> r == s
    ensures IndexOf(s, pat).Some? ==>
      var i := IndexOf(s, pat).value;
      i + |pat| <= |s| && r == s[..i] + rep + s[i + |pat|..]
  {
    match IndexOf(s, pat)
    case None => s
    case Some(i) => s[..i] + rep + s[i + |pat|..]
  }

  /** ASCII part of `toLowerCase`; other characters are left as they are. */
  function LowerChar(c: char): (d: char)
    ensures 'A' <= c <= 'Z' ==> d as int == c as int + 32
    ensures !('A' <= c <= 'Z') ==> d == c
  {
    if 'A' <= c <= 'Z' then (c as int + 32) as char else c
  }

  function Lower(s: string): (r: string)
    ensures |r| == |s|
    ensures forall i :: 0 <= i < |s| ==> r[i] == LowerChar(s[i])
  {
    seq(|s|, i requires 0 <= i < |s| => LowerChar(s[i]))
  }

  /** `a.toLowerCase().includes(b.toLowerCase())`. */
  predicate ContainsIgnoringCase(a: string, b: string) {
    Includes(Lower(a), Lower(b))
  }

  /** The characters `String.prototype.trim` strips: ECMAScript WhiteSpace and LineTerminator. */
  predicate IsWhitespace(c: char) {
    || c == '\t' || c == '\n' || c == '\U{B}' || c == '\U{C}' || c == '\r' || c == ' '
    || c == '\U{A0}' || c == '\U{1680}' || ('\U{2000}' <= c <= '\U{200A}')
    || c == '\U{2028}' || c == '\U{2029}' || c == '\U{202F}' || c == '\U{205F}'
    || c == '\U{3000}' || c == '\U{FEFF}'
  }

  predicate IsBlank(s: string) {
    forall i :: 0 <= i < |s| ==> IsWhitespace(s[i])
  }

  function TrimStart(s: string): (r: string)
    ensures |r| <= |s| && r == s[|s| - |r|..]
    ensures IsBlank(s[..|s| - |r|])
    ensures |r| > 0 ==> !IsWhitespace(r[0])
    decreases |s|
  {
    if |s| > 0 && IsWhitespace(s[0]) then TrimStart(s[1..]) else s
  }

  function TrimEnd(s: string): (r: string)
    ensures |r| <= |s| && r == s[..|r|]
    ensures IsBlank(s[|r|..])
    ensures |r| > 0 ==> !IsWhitespace(r[|r| - 1])
    decreases |s|
  {
    if |s| > 0 && IsWhitespace(s[|s| - 1]) then TrimEnd(s[..|s| - 1]) else s
  }

  /** `s.trim()`. */
  function Trim(s: string): string {
    TrimEnd(TrimStart(s))
  }

  /** `!s.trim()` holds exactly for strings made only of whitespace (including ""). */
  lemma TrimEmptyIffBlank(s: string)
    ensures Trim(s) == "" <==> IsBlank(s)
  {
    var t := TrimStart(s);
    if IsBlank(s) {
      assert IsBlank(t);
      assert |t| == 0;
    } else {
      assert s[..|s|] == s;
      assert |t| > 0;
      assert t[0..] == t;
      assert |TrimEnd(t)| > 0;
    }
  }
}
